=== FILE: README.md ===
# K4-EasyFlashlight: a Dafny model of the flashlight bookkeeping

K4-EasyFlashlight is a CounterStrikeSharp plugin. It gives every player a
flashlight: a `light_omni2` entity that follows the player's eyes. The player
toggles it with a chat command (`css_flashlight`, `css_fl`) or by pressing a
configured button (Inspect by default). This project models the plugin's
per-player bookkeeping and proves properties of it:

- **The session registry.** `_flashlightData` maps a SteamID to a
  `FlashlightData` record, which holds the optional `Flashlight` handle,
  `LastToggleTime` and `WasButtonPressed`. The command path and the tick path
  fill it on first use, for valid players only. `CleanupFlashlight` empties
  it, either for one player or for everyone.
- **The toggle state machine.** On the button path, a press counts only as a
  rising edge outside the 250 ms cooldown. The command always toggles.
- **The light handle lifecycle.** The `Flashlight` class has `Create`,
  `Teleport`, `Remove` and `Dispose`. Each is guarded by the disposed flag and
  by whether the entity is valid.
- **The visibility filter.** The CheckTransmit listener hides every other
  player's valid light entity from each recipient.
- **The pure helpers.** These are the button-name parser, the `HasFlag` bit
  test and the `css_` command prefix.

The game engine is an abstract world (`Engine.World`, seen through the value
`Engine.WorldView`). It is a set of live entity ids, the next id it will hand
out, and the pose each live entity was last teleported to. The host's answer
to a request to create an entity is a parameter (`HostAnswer`). The host can
refuse (a null handle), return a handle that is already invalid, or spawn a
fresh live entity.

The project has two layers:

- **Value level.** The modules `Lights`, `Sessions` and `Registry` state each
  operation as a function over values. The lemmas are proved there: edge and
  cooldown gating, at most one toggle per continuous hold, idempotent
  disposal, "a cleaned session leaves no live entity", and the exact set the
  visibility filter hides. `Registry.Owned` is the invariant that no two
  sessions hold the same entity and that no session holds a disposed light.
  Every operation preserves it. `Registry.NoOrphan` is the invariant that
  every live entity is a light some session holds, or one the engine had
  before the plugin was loaded. Every operation preserves it too, so cleaning
  everyone up (on Unload) leaves no light of the plugin behind.
- **Heap level.** The classes `Handles.Flashlight`,
  `EasyFlashlight.FlashlightData` and `EasyFlashlight.Plugin` update their
  fields in place, as the C# code does. Each method is proved against the
  value-level function: its `ensures` says the new state equals that function
  applied to the old state. `Plugin.Valid()` ties the heap records to a ghost
  registry value. Each key's record and handle belong to that key. The
  handles' views agree with the ghost sessions. The ghost registry satisfies
  `Owned`.

Two behaviours of the code are easy to miss, and the model keeps them:

- A creation that fails leaves the session's `Flashlight` non-null, holding
  a null or invalid entity. The next toggle then only clears it
  (`Sessions.RefusedCreateNeedsTwoToggles`).
- The position follows a single offset policy: the eye position, plus a
  distance along the yaw when the configured distance is positive (lines
  343-345).

## Model

| member | source | states |
|---|---|---|
| Buttons.ParseButtonByName | src/K4-EasyFlashlight.cs:75-92 | "Scoreboard" maps to 1<<33 and "Inspect" to 1<<35. Any other name the enum parser accepts maps to its value. Every other name falls back to 1<<35. |
| Buttons.ParseYieldsKnownMask | src/K4-EasyFlashlight.cs:75-92 | The parsed mask is always a built-in mask or a value of the enum table. |
| Buttons.UnknownNameFallsBackToDefault | src/K4-EasyFlashlight.cs:91 | A name that is not a built-in and that the parser rejects yields exactly the initial ACTIVATE_BUTTON. |
| Buttons.DefaultListenerMatchesDefaultButton | src/K4-EasyFlashlight.cs:39 | The default ButtonListener "Inspect" selects the same mask as the built-in initial value. |
| Buttons.HasFlag | src/K4-EasyFlashlight.cs:210 | Enum.HasFlag: every bit of the activation mask is set in the player's buttons. |
| Buttons.SingleButtonFlag | src/K4-EasyFlashlight.cs:210 | For a one-bit mask, HasFlag holds exactly when that button's bit is set. |
| Buttons.FlagIgnoresOtherButtons | src/K4-EasyFlashlight.cs:210 | Buttons outside the mask never change the outcome of the HasFlag test. |
| Buttons.EmptyFlagAlwaysHeld | src/K4-EasyFlashlight.cs:210 | A zero mask counts as held whatever is pressed. |
| Commands.NormalizeCommandName | src/K4-EasyFlashlight.cs:168 | The registered name always starts with `css_`. It equals the alias exactly when the alias already starts with `css_`. |
| Commands.NormalizeKeepsAlias | src/K4-EasyFlashlight.cs:168 | The alias is the tail of the registered name. |
| Commands.NormalizeIdempotent | src/K4-EasyFlashlight.cs:168 | Normalising twice equals normalising once. |
| Commands.NormalizeCollides | src/K4-EasyFlashlight.cs:168 | "x" and "css_x" register the same command name. |
| Commands.RegisterCommands | src/K4-EasyFlashlight.cs:164-171 | One registered name per configured alias, in order. Each is the normalised alias and starts with `css_`. |
| Engine.Allocate | src/K4-EasyFlashlight.cs:320-321 | The handle is null exactly when the host refuses, and the world is then unchanged. Otherwise the handle is the next id. The id is live, and therefore IsValid, exactly when the host spawned it. Consistency is preserved. |
| Engine.Discard | src/K4-EasyFlashlight.cs:356 | Entity.Remove: the id is no longer live and loses its pose. Every other id keeps its liveness and its pose, and the next id is unchanged. |
| Engine.IsValid | src/K4-EasyFlashlight.cs:321 | Entity.IsValid: the handle is non-null and its id is still live. |
| Engine.Place | src/K4-EasyFlashlight.cs:347 | Entity.Teleport: the entity records the new pose. Only that entity can gain a pose. Other entities' poses and the live set are unchanged. |
| Engine.World.constructor | src/K4-EasyFlashlight.cs:320 | The engine starts empty and consistent. |
| Engine.World.CreateEntityByName | src/K4-EasyFlashlight.cs:320 | The handle and the new engine state are exactly those of Engine.Allocate. |
| Engine.World.RemoveEntity | src/K4-EasyFlashlight.cs:356 | The new engine state is Engine.Discard of the old one. |
| Engine.World.TeleportEntity | src/K4-EasyFlashlight.cs:347 | The new engine state is Engine.Place of the old one. |
| Lights.Teleport | src/K4-EasyFlashlight.cs:335-348 | A disposed handle, an invalid entity or a missing pawn changes nothing. Otherwise the entity is placed at the pawn's pose. The live set and every other entity's pose are unchanged, and no other entity gains a pose. |
| Lights.Create | src/K4-EasyFlashlight.cs:316-333 | A disposed handle changes nothing. Otherwise the handle keeps whatever the host returned, valid or not. A spawned entity is placed at the pawn's pose when there is a pawn. In a consistent engine the pose table changes in that case only, so a refused or already invalid handle is never positioned. |
| Lights.Remove | src/K4-EasyFlashlight.cs:350-359 | A disposed or empty handle changes nothing. Otherwise the entity is removed if it is still live, losing its pose, and the handle always ends with no entity. |
| Lights.Dispose | src/K4-EasyFlashlight.cs:361-368 | The handle ends disposed. A second Dispose is a no-op. A first Dispose acts as Remove and leaves no entity. |
| Lights.RemoveLeavesNoLiveEntity | src/K4-EasyFlashlight.cs:350-359 | After Remove on an undisposed handle, the entity it held is no longer valid, and no entity became live. |
| Lights.RemoveIdempotent | src/K4-EasyFlashlight.cs:350-359 | Remove twice equals Remove once. |
| Lights.DisposeIdempotent | src/K4-EasyFlashlight.cs:361-368 | Dispose twice equals Dispose once. |
| Lights.DisposedIsInert | src/K4-EasyFlashlight.cs:316-368 | After Dispose, Create, Teleport, Remove and Dispose all change nothing. |
| Lights.CreateOutcome | src/K4-EasyFlashlight.cs:316-333 | From a fresh handle, the entity is non-null exactly when the host did not refuse, and valid exactly when it spawned. A spawned entity sits at the pawn's pose. |
| Handles.Flashlight.constructor | src/K4-EasyFlashlight.cs:309-314 | A new handle belongs to its player and has no entity. It is not disposed. |
| Handles.Flashlight.Create | src/K4-EasyFlashlight.cs:316-333 | The handle and the engine change exactly as Lights.Create says. |
| Handles.Flashlight.Teleport | src/K4-EasyFlashlight.cs:335-348 | The engine changes exactly as Lights.Teleport says. |
| Handles.Flashlight.Remove | src/K4-EasyFlashlight.cs:350-359 | The handle and the engine change exactly as Lights.Remove says. |
| Handles.Flashlight.Dispose | src/K4-EasyFlashlight.cs:361-368 | The handle and the engine change exactly as Lights.Dispose says. |
| Sessions.Toggle | src/K4-EasyFlashlight.cs:224-235 | An existing light is removed and dropped. Otherwise a new light is created and kept, whatever the host answered. The button fields are untouched. |
| Sessions.CoolingDown | src/K4-EasyFlashlight.cs:216 | Fewer than 250 ms have passed since LastToggleTime. |
| Sessions.ButtonStep | src/K4-EasyFlashlight.cs:208-222 | A released button only clears WasButtonPressed. A latched or cooling-down press changes nothing. A fresh edge toggles and sets LastToggleTime to now and WasButtonPressed to true. |
| Sessions.ReleaseResetsEdge | src/K4-EasyFlashlight.cs:208-214 | Without the activation bit, the step clears WasButtonPressed and leaves the light, LastToggleTime and the engine unchanged. |
| Sessions.CooldownBlocksPress | src/K4-EasyFlashlight.cs:216-217 | A press within 250 ms of LastToggleTime does not toggle and leaves WasButtonPressed false. |
| Sessions.EdgeOutsideCooldownToggles | src/K4-EasyFlashlight.cs:216-221 | A fresh edge outside the cooldown flips the light, stamps now and latches WasButtonPressed. |
| Sessions.FirstPressToggles | src/K4-EasyFlashlight.cs:297 | A new session starts at MinValue, so its first press passes the cooldown and turns the light on. |
| Sessions.CommandIgnoresCooldown | src/K4-EasyFlashlight.cs:173-184 | The command path flips the light without reading or updating LastToggleTime or WasButtonPressed. |
| Sessions.CommandTwiceFromOff | src/K4-EasyFlashlight.cs:224-235 | Two toggles from "off" restore the session and the set of live entities, whatever the host answered. |
| Sessions.RefusedCreateNeedsTwoToggles | src/K4-EasyFlashlight.cs:233-234 | A refused creation leaves a non-null light with no entity. The next toggle only clears it, and the engine is unchanged throughout. |
| Sessions.LatchedHoldIsInert | src/K4-EasyFlashlight.cs:216-217 | While WasButtonPressed is set, holding the button on changes nothing and never toggles. |
| Sessions.HoldTogglesOnce | src/K4-EasyFlashlight.cs:210-221 | From a clear edge flag, a continuous hold toggles exactly once if some tick falls outside the cooldown, and never otherwise. |
| Sessions.HoldTogglesAtMostOnce | src/K4-EasyFlashlight.cs:210-221 | A continuous hold toggles at most once. |
| Registry.IsValidPlayer | src/K4-EasyFlashlight.cs:205-206 | A player counts when the controller is valid, not a bot, not HLTV, and has a valid pawn. |
| Registry.GetOrCreate | src/K4-EasyFlashlight.cs:177-181 | Insert-on-first-use: the key is present afterwards. An existing entry is untouched, and a missing one starts as a new FlashlightData. |
| Registry.GetOrCreateIdempotent | src/K4-EasyFlashlight.cs:177-181 | A second lookup changes nothing. |
| Registry.ReplaceKeepsOwned | src/K4-EasyFlashlight.cs:60 | Replacing one session preserves Owned when it holds nothing, its old entity or the freshly handed-out id. |
| Registry.ToggleKeepsOwned | src/K4-EasyFlashlight.cs:224-235 | A toggle preserves Owned. |
| Registry.ButtonStepKeepsOwned | src/K4-EasyFlashlight.cs:208-222 | A button step preserves Owned. |
| Registry.InsertKeepsOwned | src/K4-EasyFlashlight.cs:177-181 | Inserting a new session preserves Owned. |
| Registry.Command | src/K4-EasyFlashlight.cs:173-184 | An invalid player changes nothing. A valid player gets a session if needed and toggles it, and every other session is unchanged. |
| Registry.CommandKeepsOwned | src/K4-EasyFlashlight.cs:173-184 | The command preserves Owned. |
| Registry.PlayerTick | src/K4-EasyFlashlight.cs:190-201 | An invalid player changes nothing. A valid player gains a key if needed, and no other session changes. The player's session takes a button step when detection is on, and the engine then gets the teleport of the session's light, if it has one. |
| Registry.PlayerTickKeepsOwned | src/K4-EasyFlashlight.cs:190-201 | One player's tick preserves Owned. |
| Registry.Tick | src/K4-EasyFlashlight.cs:186-203 | OnTick as a value: the player tick applied to each listed player in order. |
| Registry.TickKeys | src/K4-EasyFlashlight.cs:188-196 | After a tick, the keys are exactly the old keys plus the SteamIDs of the valid players. An invalid player never gains an entry. |
| Registry.TickTouchesOnlyValidPlayers | src/K4-EasyFlashlight.cs:188-202 | A session whose key belongs to no valid player of the tick is untouched. |
| Registry.TickKeepsOwned | src/K4-EasyFlashlight.cs:186-203 | A whole tick preserves Owned. |
| Registry.HeldTicks | src/K4-EasyFlashlight.cs:186-203 | Consecutive ticks that list one player, with detection on and the same buttons each time. |
| Registry.ButtonStepIgnoresPoses | src/K4-EasyFlashlight.cs:208-222 | A button step's effect on the session, the live set and the next id does not depend on entity poses. |
| Registry.HeldTicksFollowHold | src/K4-EasyFlashlight.cs:186-222 | Holding the button across ticks drives the player's session exactly as a continuous hold does, with the same live set and next id. |
| Registry.LatchedTicksKeepSession | src/K4-EasyFlashlight.cs:216-217 | Once WasButtonPressed is latched, holding on across ticks never changes the player's session. |
| Registry.HeldTicksToggleOnce | src/K4-EasyFlashlight.cs:208-222 | From a clear edge flag, holding across ticks toggles exactly once if some tick is outside the cooldown, and never otherwise. |
| Registry.DisposeSession | src/K4-EasyFlashlight.cs:260 | Disposing a session's undisposed light takes exactly its entity out of the live set. |
| Registry.DisposeSessionDropsHeld | src/K4-EasyFlashlight.cs:260 | Disposing an undisposed light removes exactly its entity from the live set and the pose table. |
| Registry.HeldSetStep | src/K4-EasyFlashlight.cs:265-268 | Visiting one more session adds exactly that session's entity to the set disposed so far. |
| Registry.CleanupOne | src/K4-EasyFlashlight.cs:256-262 | Only that key is erased, and its light is disposed. A missing key changes nothing. |
| Registry.CleanupAll | src/K4-EasyFlashlight.cs:264-269 | The registry ends empty. Exactly the held entities leave the live set. |
| Registry.Cleanup | src/K4-EasyFlashlight.cs:254-270 | A player with a user id is cleaned alone. No player, or a null user id, cleans everyone. |
| Registry.CleanupOneLeavesNoLiveEntity | src/K4-EasyFlashlight.cs:256-262 | Only that key goes, and every other entry is unchanged. The removed session's entity is no longer live, and it is the only entity that went. |
| Registry.CleanupAllLeavesNoLiveEntity | src/K4-EasyFlashlight.cs:264-269 | After cleaning everyone, the registry is empty and no entity any session held is live. Under NoOrphan, the only live entities left are those the engine had before the plugin. |
| Registry.CleanupKeepsOwned | src/K4-EasyFlashlight.cs:254-270 | Cleanup preserves Owned. |
| Registry.CleanupOneKeepsOwned | src/K4-EasyFlashlight.cs:256-262 | Cleaning one player preserves Owned. |
| Registry.NoOrphan | src/K4-EasyFlashlight.cs:60 | Every live entity is held by some session's light, or belongs to a given set of entities the engine had before. |
| Registry.HeldSetReplace | src/K4-EasyFlashlight.cs:60 | The held entities of a registry are one key's entity plus those of every other key. |
| Registry.ReplaceNoOrphan | src/K4-EasyFlashlight.cs:60 | Replacing one session preserves NoOrphan when the engine gains only what the new session holds and loses nothing else. |
| Registry.ToggleNoOrphan | src/K4-EasyFlashlight.cs:224-235 | A toggle preserves NoOrphan: a removed light takes its entity with it, and a created one is held by the session. |
| Registry.ButtonStepNoOrphan | src/K4-EasyFlashlight.cs:208-222 | A button step preserves NoOrphan. |
| Registry.InsertNoOrphan | src/K4-EasyFlashlight.cs:177-181 | Inserting a new session preserves NoOrphan. |
| Registry.CommandNoOrphan | src/K4-EasyFlashlight.cs:173-184 | The command preserves NoOrphan. |
| Registry.PlayerTickNoOrphan | src/K4-EasyFlashlight.cs:190-201 | One player's tick preserves NoOrphan. |
| Registry.TickNoOrphan | src/K4-EasyFlashlight.cs:186-203 | A whole tick preserves NoOrphan. |
| Registry.CleanupNoOrphan | src/K4-EasyFlashlight.cs:254-270 | Cleanup preserves NoOrphan. Cleaning everyone leaves only the engine's own entities live. |
| Registry.HiddenFrom | src/K4-EasyFlashlight.cs:148-158 | Only live entities are hidden, and every other session's valid light entity is. |
| Registry.HiddenFromStep | src/K4-EasyFlashlight.cs:148-158 | Visiting one more session adds its entity exactly when it is another player's valid light. |
| Registry.OwnLightNeverHidden | src/K4-EasyFlashlight.cs:150-151 | Under Owned, the recipient's own light is never hidden from it. |
| Registry.HiddenExactlyOthersLights | src/K4-EasyFlashlight.cs:148-158 | An entity is hidden exactly when another session holds it and it is live. Null and invalid entities are skipped. |
| EasyFlashlight.FlashlightData.constructor | src/K4-EasyFlashlight.cs:294-299 | A new record has no light, LastToggleTime MinValue and WasButtonPressed false. |
| EasyFlashlight.TransmitInfo.constructor | src/K4-EasyFlashlight.cs:143-156 | A recipient's transmit info holds the set of entities it is sent. |
| EasyFlashlight.Plugin.constructor | src/K4-EasyFlashlight.cs:59-65 | The plugin starts with an empty registry and ACTIVATE_BUTTON 1<<35, and the invariant holds. The entities already live are recorded as the engine's own, so NoOrphanLights holds. |
| EasyFlashlight.Plugin.NoOrphanLights | src/K4-EasyFlashlight.cs:60 | Registry.NoOrphan of the plugin's sessions and engine, relative to the entities live when the plugin was created. |
| EasyFlashlight.Plugin.OnConfigParsed | src/K4-EasyFlashlight.cs:67-73 | ACTIVATE_BUTTON becomes the parse of the configured ButtonListener. |
| EasyFlashlight.Plugin.GetOrCreateData | src/K4-EasyFlashlight.cs:177-181 | The registry becomes Registry.GetOrCreate of the old one. The returned record is the key's record, and the engine is unchanged. |
| EasyFlashlight.Plugin.ToggleFlashlight | src/K4-EasyFlashlight.cs:224-235 | The sessions and the engine change exactly as Sessions.Toggle says, and the invariant is kept. |
| EasyFlashlight.Plugin.DropLight | src/K4-EasyFlashlight.cs:226-231 | The light is removed from the engine and the session's light becomes null. |
| EasyFlashlight.Plugin.InstallLight | src/K4-EasyFlashlight.cs:233-234 | A new handle is stored and created. The session and engine change as Lights.Create from a fresh handle. |
| EasyFlashlight.Plugin.AttachLight | src/K4-EasyFlashlight.cs:233 | A fresh handle with no entity is stored in the key's record. |
| EasyFlashlight.Plugin.CreateLight | src/K4-EasyFlashlight.cs:234 | The stored fresh handle is created, as Lights.Create says. |
| EasyFlashlight.Plugin.HandleFlashlightToggle | src/K4-EasyFlashlight.cs:208-222 | The sessions and the engine change exactly as Sessions.ButtonStep says, and the invariant is kept. |
| EasyFlashlight.Plugin.PressButton | src/K4-EasyFlashlight.cs:219-221 | Toggle, then stamp now and latch WasButtonPressed. |
| EasyFlashlight.Plugin.SetButtonState | src/K4-EasyFlashlight.cs:212-221 | Only the key's LastToggleTime and WasButtonPressed change. |
| EasyFlashlight.Plugin.UpdateFlashlightPosition | src/K4-EasyFlashlight.cs:237-240 | The engine changes as Lights.Teleport of the player's light, if there is one. |
| EasyFlashlight.Plugin.ToggleFlashlightCommand | src/K4-EasyFlashlight.cs:173-184 | The sessions and the engine change exactly as Registry.Command says. NoOrphanLights is kept. |
| EasyFlashlight.Plugin.TickPlayer | src/K4-EasyFlashlight.cs:190-201 | The sessions and the engine change exactly as Registry.PlayerTick says. |
| EasyFlashlight.Plugin.OnTick | src/K4-EasyFlashlight.cs:186-203 | The sessions and the engine change exactly as Registry.Tick over the player list says. NoOrphanLights is kept. |
| EasyFlashlight.Plugin.CleanupFlashlight | src/K4-EasyFlashlight.cs:254-270 | The sessions and the engine change exactly as Registry.Cleanup says. Every erased record's light ends disposed and holding no entity. NoOrphanLights is kept. Cleaning everyone, as Unload does, leaves no live entity but those the engine had before the plugin. |
| EasyFlashlight.Plugin.CleanupPlayerData | src/K4-EasyFlashlight.cs:256-262 | The sessions and the engine change exactly as Registry.CleanupOne says. The erased record's light ends disposed and holding no entity. |
| EasyFlashlight.Plugin.CleanupAllData | src/K4-EasyFlashlight.cs:264-269 | Every light is disposed and the registry is cleared, as Registry.CleanupAll says. |
| EasyFlashlight.Plugin.DisposeAllLights | src/K4-EasyFlashlight.cs:265-268 | Loop over the records: the engine ends as Registry.CleanupAll says, and every light ends disposed with no entity. |
| EasyFlashlight.Plugin.DisposeRecordLight | src/K4-EasyFlashlight.cs:260 | The record's light is disposed, and the engine ends as Registry.DisposeSession says. |
| EasyFlashlight.Plugin.HideOtherLights | src/K4-EasyFlashlight.cs:148-158 | The recipient's transmit set loses exactly Registry.HiddenFrom. |
| EasyFlashlight.Plugin.CheckTransmit | src/K4-EasyFlashlight.cs:139-161 | With hiding disabled, or for a null player, the transmit set is unchanged. Otherwise each recipient's set loses exactly the other players' valid light entities. |

## Left out

- Config version migration and writing the config back to disk (`UpdateConfig`, lines 94-127): file I/O and reflection.
- Logging, `ColorTranslator.FromHtml` (line 131) and the JSON attribute plumbing of the config: they carry no bookkeeping.
- The static visual parameters set in `Create` and `DispatchSpawn` (lines 323, 326-332): they only set engine properties.
- The float geometry of `GetEyePosition`, `GetDirectionOffset` and the distance offset (lines 277-292, 343-345): floating point and trigonometry. `Teleport` records the pawn's pose as the host reports it, not the computed position.
- The contents of the `PlayerButtons` enum: it belongs to the host library. The case-insensitive `Enum.TryParse` is an abstract name-to-mask table (`Buttons.ButtonTable`).
- `DateTime.UtcNow` becomes a millisecond parameter `now`. One value serves a whole tick, for every player in it, although the code reads the clock afresh for each player inside the loop (lines 188, 216 and 220). Resolution is milliseconds rather than 100 ns ticks.
- `StartsWith("css_")` is culture-sensitive in .NET. The model uses an ordinal prefix test.
- Listener and command registration with the host (lines 133-141, 169), and the host's command dispatch. `Utilities.GetPlayers()` and the CheckTransmit info list become parameters.
- `OnPlayerDeath`, `OnPlayerDisconnect` and `Unload` (lines 242-252, 272-275): they only forward to `CleanupFlashlight`, which is modelled.
- `EasyFlashlight.Plugin.CheckTransmit` requires the transmit infos to be distinct objects. The model does not cover one info object shared by two recipients, which would lose both recipients' hidden sets.
- `EasyFlashlight.Plugin.DisposeRecordLight` promises "no entity" only for a light that was not yet disposed. A session's light is never disposed while in the registry, so the cleanup methods still state it for every erased light.
- `GC.SuppressFinalize` (line 367): no state.
- `Registry.PlayerTick` and `EasyFlashlight.Plugin.UpdateFlashlightPosition` move a session's light to the pawn of the controller the current tick lists under that SteamID. The code instead reads the pawn of the controller captured when the light was created (`_player`, lines 233, 312 and 337-341). The two differ when two valid controllers share a SteamID, or when the controller object is replaced while its session survives. The model identifies a controller with its SteamID and does not capture that difference.

=== FILE: buttons.dfy ===
/**
 * Activation-button masks: the name-to-mask parser used when the
 * configuration is parsed, and the bit test applied to a player's buttons
 * on every tick.
 */
module Buttons {

  /** A PlayerButtons value (a 64-bit flag set, `ulong` in the source). */
  type Mask = bv64

  const ScoreboardButton: Mask := 1 << 33
  const InspectButton: Mask := 1 << 35

  /** The value ACTIVATE_BUTTON starts with before any configuration is parsed. */
  const DefaultActivateButton: Mask := 1 << 35

  /** The configuration's default ButtonListener. */
  const DefaultButtonListener: string := "Inspect"

  /**
   * The names that the host library's case-insensitive enum parser accepts for
   * PlayerButtons, with the mask each stands for. The enumeration belongs to
   * the host library, so the model keeps it abstract.
   */
  type ButtonTable = map<string, Mask>

  /**
   * Maps a configured button name to its mask: the two built-in names first,
   * then whatever the enum parser accepts, and the Inspect mask for anything
   * else.
   */
  function ParseButtonByName(name: string, table: ButtonTable): (r: Mask)
    ensures name == "Scoreboard" ==> r == ScoreboardButton
    ensures name == "Inspect" ==> r == InspectButton
    ensures name != "Scoreboard" && name != "Inspect" && name in table ==> r == table[name]
    ensures name != "Scoreboard" && name != "Inspect" && name !in table ==> r == InspectButton
  {
    if name == "Scoreboard" then ScoreboardButton
    else if name == "Inspect" then InspectButton
    else if name in table then table[name]
    else InspectButton
  }

  /** The parser never invents a mask: it is a built-in one or one the table holds. */
  lemma ParseYieldsKnownMask(name: string, table: ButtonTable)
    ensures var r := ParseButtonByName(name, table);
            r == ScoreboardButton || r == InspectButton || r in table.Values
  {
    var r := ParseButtonByName(name, table);
    if name != "Scoreboard" && name != "Inspect" && name in table {
      assert table[name] in table.Values;
    }
  }

  /** An unknown name falls back to exactly the mask the plugin starts with. */
  lemma UnknownNameFallsBackToDefault(name: string, table: ButtonTable)
    requires name != "Scoreboard" && name !in table
    ensures ParseButtonByName(name, table) == DefaultActivateButton
  {
  }

  /** The default configuration selects the same button as the built-in initial value. */
  lemma DefaultListenerMatchesDefaultButton(table: ButtonTable)
    ensures ParseButtonByName(DefaultButtonListener, table) == DefaultActivateButton
  {
  }

  /** Enum.HasFlag: every bit of `flag` is set in `buttons`. */
  predicate HasFlag(buttons: Mask, flag: Mask) {
    buttons & flag == flag
  }

  /** For a one-bit mask, the test is exactly "that button is held". */
  lemma SingleButtonFlag(buttons: Mask, n: nat)
    requires n < 64
    ensures HasFlag(buttons, 1 << n) <==> (buttons >> n) & 1 == 1
  {
  }

  /** Buttons outside the mask never influence the test. */
  lemma FlagIgnoresOtherButtons(buttons: Mask, other: Mask, flag: Mask)
    requires other & flag == 0
    ensures HasFlag(buttons | other, flag) <==> HasFlag(buttons, flag)
  {
    assert (buttons | other) & flag == buttons & flag;
  }

  /** A zero mask (an enum value with no bits) counts as held whatever is pressed. */
  lemma EmptyFlagAlwaysHeld(buttons: Mask)
    ensures HasFlag(buttons, 0)
  {
  }
}

=== FILE: commands.dfy ===
/** Chat/console command names registered for the toggle command. */
module Commands {

  const CommandPrefix: string := "css_"

  /** A configured alias gets the `css_` prefix unless it already starts with it. */
  function NormalizeCommandName(command: string): (r: string)
    ensures CommandPrefix <= r
    ensures r == command <==> CommandPrefix <= command
  {
    if !(CommandPrefix <= command) then CommandPrefix + command else command
  }

  /** The configured alias survives as the tail of the registered name. */
  lemma NormalizeKeepsAlias(command: string)
    ensures var r := NormalizeCommandName(command);
            |r| >= |command| && r[|r| - |command|..] == command
  {
  }

  lemma NormalizeIdempotent(command: string)
    ensures NormalizeCommandName(NormalizeCommandName(command)) == NormalizeCommandName(command)
  {
  }

  /** An alias and the same alias written with the prefix register the same name. */
  lemma NormalizeCollides(a: string)
    requires !(CommandPrefix <= a)
    ensures NormalizeCommandName(a) == NormalizeCommandName(CommandPrefix + a)
  {
    assert CommandPrefix <= CommandPrefix + a;
  }

  /**
   * The names handed to the host's command registration, one per configured
   * alias and in the configured order.
   */
  method RegisterCommands(commands: seq<string>) returns (names: seq<string>)
    ensures |names| == |commands|
    ensures forall i :: 0 <= i < |commands| ==> names[i] == NormalizeCommandName(commands[i])
    ensures forall i :: 0 <= i < |names| ==> CommandPrefix <= names[i]
  {
    names := [];
    for i := 0 to |commands|
      invariant |names| == i
      invariant forall j :: 0 <= j < i ==> names[j] == NormalizeCommandName(commands[j])
    {
      var cmdName := NormalizeCommandName(commands[i]);
      names := names + [cmdName];
    }
  }
}

=== FILE: engine.dfy ===
/**
 * The game engine as the plugin sees it: a set of live entity ids, the next
 * id the engine will hand out, and the pose each live entity was last
 * teleported to. An entity handle is valid exactly while its id is live.
 */
module Engine {
  import opened Wrappers

  type EntityId = nat

  /** The pawn's eye position and view angles as the host reports them. */
  datatype Pose = Pose(x: int, y: int, z: int, pitch: int, yaw: int, roll: int)

  /**
   * What the host does with a request to create a light entity: refuse it
   * (a null handle), hand out a handle that is already invalid, or spawn a
   * fresh live entity.
   */
  datatype HostAnswer = Refuse | Stale | Spawn

  datatype WorldView = WorldView(live: set<EntityId>, next: EntityId, placed: map<EntityId, Pose>)

  /** Ids are handed out in increasing order, and only live entities have a pose. */
  ghost predicate Consistent(w: WorldView) {
    && (forall e :: e in w.live ==> e < w.next)
    && w.placed.Keys <= w.live
  }

  /** `IsValid` of a nullable entity handle. */
  predicate IsValid(w: WorldView, e: Option<EntityId>) {
    e.Some? && e.value in w.live
  }

  /** CreateEntityByName: the handle the host returns and the world afterwards. */
  function Allocate(w: WorldView, answer: HostAnswer): (r: (Option<EntityId>, WorldView))
    ensures answer == Refuse <==> r.0.None?
    ensures answer == Refuse ==> r.1 == w
    ensures r.0.Some? ==> r.0.value == w.next && r.1.next == w.next + 1
    ensures r.1.live == if answer == Spawn then w.live + {w.next} else w.live
    ensures r.1.placed == w.placed
    ensures Consistent(w) ==> Consistent(r.1) && (IsValid(r.1, r.0) <==> answer == Spawn)
  {
    match answer
    case Refuse => (None, w)
    case Stale => (Some(w.next), w.(next := w.next + 1))
    case Spawn => (Some(w.next), w.(live := w.live + {w.next}, next := w.next + 1))
  }

  /** Entity.Remove: the id is no longer live and forgets its pose. */
  function Discard(w: WorldView, e: EntityId): (r: WorldView)
    ensures e !in r.live && r.live == w.live - {e} && r.next == w.next
    ensures e !in r.placed && forall o :: o in w.placed && o != e ==> o in r.placed && r.placed[o] == w.placed[o]
    ensures r.placed.Keys == w.placed.Keys - {e}
    ensures Consistent(w) ==> Consistent(r)
  {
    w.(live := w.live - {e}, placed := w.placed - {e})
  }

  /** Entity.Teleport: a live entity records a new pose; nothing else changes. */
  function Place(w: WorldView, e: EntityId, pose: Pose): (r: WorldView)
    requires e in w.live
    ensures r.live == w.live && r.next == w.next && e in r.placed && r.placed[e] == pose
    ensures r.placed.Keys == w.placed.Keys + {e}
    ensures forall o :: o in w.placed && o != e ==> o in r.placed && r.placed[o] == w.placed[o]
    ensures Consistent(w) ==> Consistent(r)
  {
    w.(placed := w.placed[e := pose])
  }

  /** The host's entity system, updated in place by the plugin's calls. */
  class World {
    var live: set<EntityId>
    var next: EntityId
    var placed: map<EntityId, Pose>

    function View(): WorldView
      reads this
    {
      WorldView(live, next, placed)
    }

    constructor ()
      ensures View() == WorldView({}, 0, map[]) && Consistent(View())
    {
      live, next, placed := {}, 0, map[];
    }

    method CreateEntityByName(answer: HostAnswer) returns (e: Option<EntityId>)
      modifies this
      ensures (e, View()) == Allocate(old(View()), answer)
    {
      match answer
      case Refuse =>
        e := None;
      case Stale =>
        e := Some(next);
        next := next + 1;
      case Spawn =>
        e := Some(next);
        live := live + {next};
        next := next + 1;
    }

    method RemoveEntity(e: EntityId)
      modifies this
      ensures View() == Discard(old(View()), e)
    {
      live := live - {e};
      placed := placed - {e};
    }

    method TeleportEntity(e: EntityId, pose: Pose)
      requires e in live
      modifies this
      ensures View() == Place(old(View()), e, pose)
    {
      placed := placed[e := pose];
    }
  }
}

=== FILE: flashlight.dfy ===
/** The `Flashlight` handle class: one light entity owned by one session. */
module Handles {
  import opened Wrappers
  import opened Engine
  import Lights
  import opened Registry

  class Flashlight {
    /** The engine every entity call goes to. */
    const world: World
    /** `_player`, identified by its SteamID: the player whose session owns the light. */
    const player: SteamId
    /** `Entity`: the light entity handle, null until Create asks for one. */
    var entity: Option<EntityId>
    /** `_isDisposed`. */
    var disposed: bool

    function View(): Lights.LightView
      reads this
    {
      Lights.LightView(entity, disposed)
    }

    constructor (world: World, player: SteamId)
      ensures this.world == world && this.player == player && View() == Lights.Unlit
    {
      this.world := world;
      this.player := player;
      entity := None;
      disposed := false;
    }

    /** Creates the entity; the static visual parameters and the spawn carry no state here. */
    method Create(answer: HostAnswer, pawn: Option<Pose>)
      modifies this, world
      ensures (View(), world.View()) == Lights.Create(old(View()), old(world.View()), answer, pawn)
    {
      if disposed {
        return;
      }
      entity := world.CreateEntityByName(answer);
      if entity.None? || entity.value !in world.live {
        return;
      }
      Teleport(pawn);
    }

    /** Moves the entity to the pawn's pose, when there is an entity and a pawn. */
    method Teleport(pawn: Option<Pose>)
      modifies world
      ensures world.View() == Lights.Teleport(View(), old(world.View()), pawn)
    {
      if disposed || entity.None? || entity.value !in world.live || pawn.None? {
        return;
      }
      world.TeleportEntity(entity.value, pawn.value);
    }

    method Remove()
      modifies this, world
      ensures (View(), world.View()) == Lights.Remove(old(View()), old(world.View()))
    {
      if disposed || entity.None? {
        return;
      }
      if entity.value in world.live {
        world.RemoveEntity(entity.value);
      }
      entity := None;
    }

    method Dispose()
      modifies this, world
      ensures (View(), world.View()) == Lights.Dispose(old(View()), old(world.View()))
    {
      if disposed {
        return;
      }
      Remove();
      disposed := true;
    }
  }
}

=== FILE: lights.dfy ===
/**
 * The light handle (the `Flashlight` class) as a value: the entity it holds,
 * if any, and whether it has been disposed. Each operation returns the new
 * handle together with the engine it leaves behind.
 */
module Lights {
  import opened Wrappers
  import opened Engine

  datatype LightView = LightView(entity: Option<EntityId>, disposed: bool)

  /** A freshly constructed handle: no entity yet, not disposed. */
  const Unlit := LightView(None, false)

  /** Teleport: moves a valid entity of an undisposed handle to the pawn's pose. */
  function Teleport(l: LightView, w: WorldView, pawn: Option<Pose>): (r: WorldView)
    ensures r.live == w.live && r.next == w.next
    ensures l.disposed || !IsValid(w, l.entity) || pawn.None? ==> r == w
    ensures !l.disposed && IsValid(w, l.entity) && pawn.Some? ==>
              l.entity.value in r.placed && r.placed[l.entity.value] == pawn.value
    ensures forall o :: o in w.placed && (l.entity.None? || o != l.entity.value) ==>
              o in r.placed && r.placed[o] == w.placed[o]
    ensures r.placed.Keys <= w.placed.Keys + (if l.entity.Some? then {l.entity.value} else {})
    ensures Consistent(w) ==> Consistent(r)
  {
    if l.disposed || !IsValid(w, l.entity) || pawn.None? then w
    else Place(w, l.entity.value, pawn.value)
  }

  /**
   * Create: asks the host for an entity and keeps whatever handle it returns;
   * only a valid entity is positioned.
   */
  function Create(l: LightView, w: WorldView, answer: HostAnswer, pawn: Option<Pose>): (r: (LightView, WorldView))
    ensures r.0.disposed == l.disposed
    ensures l.disposed ==> r == (l, w)
    ensures !l.disposed ==> r.0.entity == Allocate(w, answer).0
    ensures !l.disposed ==> r.1.live == Allocate(w, answer).1.live && r.1.next == Allocate(w, answer).1.next
    ensures !l.disposed && answer == Spawn && pawn.Some? ==> w.next in r.1.placed && r.1.placed[w.next] == pawn.value
    ensures Consistent(w) ==>
              r.1.placed == if !l.disposed && answer == Spawn && pawn.Some? then w.placed[w.next := pawn.value] else w.placed
    ensures Consistent(w) ==> Consistent(r.1)
  {
    if l.disposed then (l, w)
    else
      var (e, w1) := Allocate(w, answer);
      var l1 := l.(entity := e);
      if !IsValid(w1, e) then (l1, w1)
      else (l1, Teleport(l1, w1, pawn))
  }

  /**
   * Remove: does nothing to a disposed or empty handle; otherwise removes the
   * entity if it is still valid and always forgets it.
   */
  function Remove(l: LightView, w: WorldView): (r: (LightView, WorldView))
    ensures r.0.disposed == l.disposed
    ensures l.disposed || l.entity.None? ==> r == (l, w)
    ensures !l.disposed ==> r.0.entity.None?
    ensures !l.disposed && l.entity.Some? ==> r.1.live == w.live - {l.entity.value}
    ensures r.1.placed == if !l.disposed && IsValid(w, l.entity) then w.placed - {l.entity.value} else w.placed
    ensures r.1.next == w.next
    ensures Consistent(w) ==> Consistent(r.1)
  {
    if l.disposed || l.entity.None? then (l, w)
    else
      var w1 := if IsValid(w, l.entity) then Discard(w, l.entity.value) else w;
      (l.(entity := None), w1)
  }

  /** Dispose: a Remove followed by marking the handle disposed, once. */
  function Dispose(l: LightView, w: WorldView): (r: (LightView, WorldView))
    ensures r.0.disposed
    ensures l.disposed ==> r == (l, w)
    ensures !l.disposed ==> r.0.entity.None? && r.1 == Remove(l, w).1
    ensures Consistent(w) ==> Consistent(r.1)
  {
    if l.disposed then (l, w)
    else
      var (l1, w1) := Remove(l, w);
      (l1.(disposed := true), w1)
  }

  /** After Remove on an undisposed handle, the entity it held is no longer live. */
  lemma RemoveLeavesNoLiveEntity(l: LightView, w: WorldView)
    requires !l.disposed
    ensures var (l1, w1) := Remove(l, w);
            l1.entity.None? && !IsValid(w1, l.entity) && w1.live <= w.live
  {
  }

  lemma RemoveIdempotent(l: LightView, w: WorldView)
    ensures var (l1, w1) := Remove(l, w); Remove(l1, w1) == (l1, w1)
  {
  }

  lemma DisposeIdempotent(l: LightView, w: WorldView)
    ensures var (l1, w1) := Dispose(l, w); Dispose(l1, w1) == (l1, w1)
  {
  }

  /** Once disposed, Create, Teleport, Remove and Dispose change nothing. */
  lemma DisposedIsInert(l: LightView, w: WorldView, answer: HostAnswer, pawn: Option<Pose>)
    requires l.disposed
    ensures Create(l, w, answer, pawn) == (l, w)
    ensures Teleport(l, w, pawn) == w
    ensures Remove(l, w) == (l, w)
    ensures Dispose(l, w) == (l, w)
  {
  }

  /**
   * Creating from a fresh handle: the handle is non-null exactly when the host
   * did not refuse, the entity is valid exactly when the host spawned it, and a
   * spawned entity is placed at the pawn's pose when there is one.
   */
  lemma CreateOutcome(w: WorldView, answer: HostAnswer, pawn: Option<Pose>)
    requires Consistent(w)
    ensures var (l1, w1) := Create(Unlit, w, answer, pawn);
            && !l1.disposed
            && (l1.entity.Some? <==> answer != Refuse)
            && (IsValid(w1, l1.entity) <==> answer == Spawn)
            && (answer == Spawn && pawn.Some? ==> w1.placed[w.next] == pawn.value)
  {
    var (e, w1) := Allocate(w, answer);
    if answer == Spawn {
      assert IsValid(w1, e);
    }
  }
}

=== FILE: plugin.dfy ===
/**
 * The plugin object: its registry of per-player `FlashlightData` records,
 * updated in place by the command, tick, cleanup and transmit callbacks.
 */
module EasyFlashlight {
  import opened Wrappers
  import opened Engine
  import opened Buttons
  import Lights
  import opened Sessions
  import opened Registry
  import opened Handles

  /** FlashlightData: one player's light and button bookkeeping. */
  class FlashlightData {
    /** The registry key this record is stored under. */
    ghost const key: SteamId
    var light: Flashlight?
    var lastToggle: Millis
    var wasPressed: bool

    constructor (ghost key: SteamId)
      ensures this.key == key && light == null && lastToggle == MinToggleTime && !wasPressed
    {
      this.key := key;
      light := null;
      lastToggle := MinToggleTime;
      wasPressed := false;
    }

    ghost function View(): Session
      reads this, light
    {
      Session(if light == null then None else Some(light.View()), lastToggle, wasPressed)
    }
  }

  /** The host's per-recipient transmit list: the entities that recipient will be sent. */
  class TransmitInfo {
    var entities: set<EntityId>

    constructor (entities: set<EntityId>)
      ensures this.entities == entities
    {
      this.entities := entities;
    }
  }

  class Plugin {
    const world: World
    /** `_flashlightData`. */
    var registry: map<SteamId, FlashlightData>
    /** ACTIVATE_BUTTON. */
    var activateButton: Mask
    /** Config.DetectButtonPress. */
    const detectButtonPress: bool
    /** Config.HideOtherFlashlights. */
    const hideOtherFlashlights: bool
    /** The registry as a value: each key's record, read through its light. */
    ghost var sessions: Registry
    /** The records and the light handles the registry reaches. */
    ghost var Records: set<FlashlightData>
    ghost var LightHandles: set<Flashlight>
    /** The entities the engine held before the plugin was loaded. */
    ghost const Foreign: set<EntityId>

    /**
     * Every record sits under its own key and shows that key's session; its
     * light (if any) follows that key's player and talks to this plugin's
     * engine. So no two keys share a record or a light.
     */
    ghost predicate Entry(k: SteamId)
      requires k in registry
      reads this, Records, LightHandles
    {
      && registry[k] in Records
      && registry[k].key == k
      && (registry[k].light != null ==>
            registry[k].light in LightHandles && registry[k].light.player == k && registry[k].light.world == world)
      && k in sessions && registry[k].View() == sessions[k]
    }

    ghost predicate Synced()
      reads this, Records, LightHandles
    {
      registry.Keys == sessions.Keys && forall k :: k in registry ==> Entry(k)
    }

    ghost predicate Valid()
      reads this, Records, LightHandles, world
    {
      Synced() && Owned(sessions, world.View())
    }

    /** Every live entity is a light some session holds, or was there before the plugin. */
    ghost predicate NoOrphanLights()
      reads this, world
    {
      NoOrphan(sessions, world.View(), Foreign)
    }

    constructor (world: World, detectButtonPress: bool, hideOtherFlashlights: bool)
      requires Consistent(world.View())
      ensures Valid() && sessions == map[] && this.world == world
      ensures Foreign == world.live && NoOrphanLights()
      ensures activateButton == DefaultActivateButton
      ensures this.detectButtonPress == detectButtonPress && this.hideOtherFlashlights == hideOtherFlashlights
    {
      this.world := world;
      registry := map[];
      activateButton := DefaultActivateButton;
      this.detectButtonPress := detectButtonPress;
      this.hideOtherFlashlights := hideOtherFlashlights;
      sessions := map[];
      Records, LightHandles := {}, {};
      Foreign := world.live;
    }

    /** OnConfigParsed: the configured listener name selects the activation mask. */
    method OnConfigParsed(buttonListener: string, table: ButtonTable)
      modifies this`activateButton
      ensures activateButton == ParseButtonByName(buttonListener, table)
    {
      activateButton := ParseButtonByName(buttonListener, table);
    }

    /** The lookup-or-insert that both the command and the tick path start with. */
    method GetOrCreateData(k: SteamId) returns (d: FlashlightData)
      requires Valid()
      modifies this`registry, this`Records, this`sessions
      ensures Valid() && fresh(Records - old(Records))
      ensures sessions == GetOrCreate(old(sessions), k)
      ensures k in registry && d == registry[k]
      ensures world.View() == old(world.View())
    {
      if k in registry {
        d := registry[k];
        return;
      }
      InsertKeepsOwned(sessions, world.View(), k);
      label before:
      d := new FlashlightData(k);
      registry := registry[k := d];
      Records := Records + {d};
      sessions := sessions[k := NewSession];
      forall o | o in registry ensures Entry(o) {
        if o != k {
          assert old@before(Entry(o));
        }
      }
    }

    /** ToggleFlashlight: remove and drop an existing light, or install and create a new one. */
    method ToggleFlashlight(k: SteamId, answer: HostAnswer, pawn: Option<Pose>)
      requires Valid() && k in registry
      modifies this`sessions, this`LightHandles, Records, LightHandles, world
      ensures Valid()
      ensures fresh(LightHandles - old(LightHandles))
      ensures var (s1, w1) := Toggle(old(sessions)[k], old(world.View()), answer, pawn);
              sessions == old(sessions)[k := s1] && world.View() == w1
    {
      if registry[k].light != null {
        DropLight(k);
      } else {
        InstallLight(k, answer, pawn);
      }
    }

    /** The first branch of ToggleFlashlight: remove the light's entity and forget the light. */
    method DropLight(k: SteamId)
      requires Valid() && k in registry && registry[k].light != null
      modifies this`sessions, registry[k], registry[k].light, world
      ensures Valid()
      ensures var l := old(sessions)[k].light.value;
              && sessions == old(sessions)[k := old(sessions)[k].(light := None)]
              && world.View() == Lights.Remove(l, old(world.View())).1
    {
      ToggleKeepsOwned(sessions, world.View(), k, Refuse, None);
      ghost var t := Toggle(sessions[k], world.View(), Refuse, None);
      var d := registry[k];
      label before:
      d.light.Remove();
      d.light := null;
      assert d.View() == t.0 && world.View() == t.1;
      sessions := sessions[k := t.0];
      forall o | o in registry ensures Entry(o) {
        if o != k {
          assert old@before(Entry(o)) && registry[o] != d;
        }
      }
    }

    /** The second branch of ToggleFlashlight: install a fresh light and create its entity. */
    method InstallLight(k: SteamId, answer: HostAnswer, pawn: Option<Pose>)
      requires Valid() && k in registry && registry[k].light == null
      modifies this`sessions, this`LightHandles, registry[k], world
      ensures Valid()
      ensures fresh(LightHandles - old(LightHandles))
      ensures var (l1, w1) := Lights.Create(Lights.Unlit, old(world.View()), answer, pawn);
              && sessions == old(sessions)[k := old(sessions)[k].(light := Some(l1))]
              && world.View() == w1
    {
      ghost var s0 := sessions;
      AttachLight(k);
      CreateLight(k, answer, pawn);
      ghost var l1 := Lights.Create(Lights.Unlit, old(world.View()), answer, pawn).0;
      OverwriteSession(s0, k, s0[k].(light := Some(Lights.Unlit)), s0[k].(light := Some(l1)));
    }

    /** `new Flashlight(...)`: the record gets a fresh handle that holds no entity yet. */
    method AttachLight(k: SteamId)
      requires Valid() && k in registry && registry[k].light == null
      modifies this`sessions, this`LightHandles, registry[k]
      ensures Valid()
      ensures fresh(LightHandles - old(LightHandles))
      ensures sessions == old(sessions)[k := old(sessions)[k].(light := Some(Lights.Unlit))]
      ensures registry[k].light != null && fresh(registry[k].light)
    {
      ghost var s1 := sessions[k].(light := Some(Lights.Unlit));
      ReplaceKeepsOwned(sessions, world.View(), k, s1, world.View());
      var d := registry[k];
      label before:
      var fl := new Flashlight(world, k);
      d.light := fl;
      LightHandles := LightHandles + {fl};
      sessions := sessions[k := s1];
      forall o | o in registry ensures Entry(o) {
        if o != k {
          assert old@before(Entry(o)) && registry[o] != d;
        }
      }
    }

    /** `Flashlight.Create()` on a record's freshly attached handle. */
    method CreateLight(k: SteamId, answer: HostAnswer, pawn: Option<Pose>)
      requires Valid() && k in registry && registry[k].light != null
      requires sessions[k].light == Some(Lights.Unlit)
      modifies this`sessions, registry[k].light, world
      ensures Valid()
      ensures var (l1, w1) := Lights.Create(Lights.Unlit, old(world.View()), answer, pawn);
              && sessions == old(sessions)[k := old(sessions)[k].(light := Some(l1))]
              && world.View() == w1
    {
      ghost var t := Lights.Create(Lights.Unlit, world.View(), answer, pawn);
      ghost var s1 := sessions[k].(light := Some(t.0));
      Lights.CreateOutcome(world.View(), answer, pawn);
      ReplaceKeepsOwned(sessions, world.View(), k, s1, t.1);
      var d := registry[k];
      assert Entry(k);
      label before:
      d.light.Create(answer, pawn);
      assert d.View() == s1 && world.View() == t.1;
      sessions := sessions[k := s1];
      forall o | o in registry ensures Entry(o) {
        if o != k {
          assert old@before(Entry(o)) && registry[o].light != d.light;
        }
      }
    }

    /** HandleFlashlightToggle: the held-button path for one valid player. */
    method HandleFlashlightToggle(p: Player, now: Millis, answer: HostAnswer)
      requires Valid() && p.steamId in registry
      modifies this`sessions, this`LightHandles, Records, LightHandles, world
      ensures Valid()
      ensures fresh(LightHandles - old(LightHandles))
      ensures var (s1, w1) := ButtonStep(old(sessions)[p.steamId], old(world.View()), p.buttons,
                                         activateButton, now, answer, p.pawn);
              sessions == old(sessions)[p.steamId := s1] && world.View() == w1
    {
      var k := p.steamId;
      ghost var t := ButtonStep(sessions[k], world.View(), p.buttons, activateButton, now, answer, p.pawn);
      var d := registry[k];
      assert Entry(k);
      if !HasFlag(p.buttons, activateButton) {
        SetButtonState(k, d.lastToggle, false);
        return;
      }
      if d.wasPressed || now - d.lastToggle < ToggleCooldownMs {
        KeepSession(sessions, k);
        return;
      }
      PressButton(k, now, answer, p.pawn);
    }

    /** A press outside the cooldown: toggle, then stamp the time and latch the edge. */
    method PressButton(k: SteamId, now: Millis, answer: HostAnswer, pawn: Option<Pose>)
      requires Valid() && k in registry
      modifies this`sessions, this`LightHandles, Records, LightHandles, world
      ensures Valid()
      ensures fresh(LightHandles - old(LightHandles))
      ensures var (s1, w1) := Toggle(old(sessions)[k], old(world.View()), answer, pawn);
              sessions == old(sessions)[k := s1.(lastToggle := now, wasPressed := true)] && world.View() == w1
    {
      ghost var s0 := sessions;
      ghost var t := Toggle(s0[k], world.View(), answer, pawn);
      ToggleFlashlight(k, answer, pawn);
      assert sessions == s0[k := t.0] && world.View() == t.1;
      SetButtonState(k, now, true);
      OverwriteSession(s0, k, t.0, t.0.(lastToggle := now, wasPressed := true));
    }

    /** Stores a record's toggle time and edge latch; its light and every other record are untouched. */
    method SetButtonState(k: SteamId, lastToggle: Millis, wasPressed: bool)
      requires Valid() && k in registry
      modifies this`sessions, registry[k]
      ensures Valid()
      ensures sessions == old(sessions)[k := old(sessions)[k].(lastToggle := lastToggle, wasPressed := wasPressed)]
    {
      var d := registry[k];
      ghost var s1 := sessions[k].(lastToggle := lastToggle, wasPressed := wasPressed);
      assert SessionOk(sessions[k], world.View());
      ReplaceKeepsOwned(sessions, world.View(), k, s1, world.View());
      label before:
      d.lastToggle, d.wasPressed := lastToggle, wasPressed;
      sessions := sessions[k := s1];
      forall o | o in registry ensures Entry(o) {
        if o != k {
          assert old@before(Entry(o)) && registry[o] != d;
        }
      }
    }

    /** UpdateFlashlightPosition. */
    method UpdateFlashlightPosition(p: Player)
      requires Valid() && p.steamId in registry
      modifies world
      ensures Valid()
      ensures var s := sessions[p.steamId];
              world.View() == if s.light.Some? then Lights.Teleport(s.light.value, old(world.View()), p.pawn)
                              else old(world.View())
    {
      var d := registry[p.steamId];
      if d.light != null {
        d.light.Teleport(p.pawn);
      }
      forall o | o in sessions ensures SessionOk(sessions[o], world.View()) {
        assert SessionOk(sessions[o], old(world.View()));
      }
    }

    /** ToggleFlashlightCommand: the explicit command, with no cooldown. */
    method ToggleFlashlightCommand(player: Option<Player>, answer: HostAnswer)
      requires Valid()
      modifies this`registry, this`Records, this`sessions, this`LightHandles, Records, LightHandles, world
      ensures Valid() && fresh(Records - old(Records)) && fresh(LightHandles - old(LightHandles))
      ensures (sessions, world.View()) == Command(old(sessions), old(world.View()), player, answer)
      ensures old(NoOrphanLights()) ==> NoOrphanLights()
    {
      if NoOrphanLights() {
        CommandNoOrphan(sessions, world.View(), Foreign, player, answer);
      }
      if !IsValidPlayer(player) {
        return;
      }
      var k := player.value.steamId;
      var d := GetOrCreateData(k);
      ToggleFlashlight(k, answer, player.value.pawn);
    }

    /** One iteration of OnTick, for a valid player. */
    method TickPlayer(p: Player, now: Millis, answer: HostAnswer)
      requires Valid() && IsValidPlayer(Some(p))
      modifies this`registry, this`Records, this`sessions, this`LightHandles, Records, LightHandles, world
      ensures Valid() && fresh(Records - old(Records)) && fresh(LightHandles - old(LightHandles))
      ensures (sessions, world.View())
              == PlayerTick(old(sessions), old(world.View()), p, detectButtonPress, activateButton, now, answer)
    {
      var d := GetOrCreateData(p.steamId);
      if detectButtonPress {
        HandleFlashlightToggle(p, now, answer);
      } else {
        KeepSession(sessions, p.steamId);
      }
      UpdateFlashlightPosition(p);
    }

    /** OnTick: every valid player gets a session, a button step (when enabled) and a teleport. */
    method OnTick(players: seq<Player>, answers: seq<HostAnswer>, now: Millis)
      requires Valid() && |answers| == |players|
      modifies this`registry, this`Records, this`sessions, this`LightHandles, Records, LightHandles, world
      ensures Valid() && fresh(Records - old(Records)) && fresh(LightHandles - old(LightHandles))
      ensures (sessions, world.View())
              == Tick(old(sessions), old(world.View()), players, answers, detectButtonPress, activateButton, now)
      ensures old(NoOrphanLights()) ==> NoOrphanLights()
    {
      if NoOrphanLights() {
        TickNoOrphan(sessions, world.View(), Foreign, players, answers, detectButtonPress, activateButton, now);
      }
      for i := 0 to |players|
        invariant Valid() && fresh(Records - old(Records)) && fresh(LightHandles - old(LightHandles))
        invariant (sessions, world.View())
                  == Tick(old(sessions), old(world.View()), players[..i], answers[..i], detectButtonPress, activateButton, now)
      {
        assert players[..i + 1][..i] == players[..i] && answers[..i + 1][..i] == answers[..i];
        var p := players[i];
        if !IsValidPlayer(Some(p)) {
          continue;
        }
        TickPlayer(p, now, answers[i]);
      }
      assert players[..|players|] == players && answers[..|answers|] == answers;
    }

    /** CleanupFlashlight: one player when it has a user id, otherwise everyone. */
    method CleanupFlashlight(player: Option<Player>)
      requires Valid()
      modifies this`registry, this`sessions, LightHandles, world
      ensures Valid()
      ensures (sessions, world.View()) == Cleanup(old(sessions), old(world.View()), player)
      ensures forall k :: k in old(registry) && k !in registry && old(registry[k].light) != null ==>
                old(registry[k].light).disposed && old(registry[k].light).entity.None?
      ensures old(NoOrphanLights()) ==> NoOrphanLights()
      ensures old(NoOrphanLights()) && (player.None? || player.value.userId.None?) ==> world.live <= Foreign
    {
      CleanupKeepsOwned(sessions, world.View(), player);
      if NoOrphanLights() {
        CleanupNoOrphan(sessions, world.View(), Foreign, player);
      }
      if player.Some? && player.value.userId.Some? {
        CleanupPlayerData(player.value.steamId);
      } else {
        CleanupAllData();
      }
    }

    /** The one-player branch of CleanupFlashlight: erase the key, then dispose its light. */
    method CleanupPlayerData(k: SteamId)
      requires Valid()
      modifies this`registry, this`sessions, LightHandles, world
      ensures Valid()
      ensures (sessions, world.View()) == CleanupOne(old(sessions), old(world.View()), k)
      ensures forall o :: o in old(registry) && o !in registry && old(registry[o].light) != null ==>
                old(registry[o].light).disposed && old(registry[o].light).entity.None?
    {
      CleanupOneKeepsOwned(sessions, world.View(), k);
      if k in registry {
        var d := registry[k];
        ghost var s := sessions[k];
        assert Entry(k) && SessionOk(s, world.View());
        registry := registry - {k};
        sessions := sessions - {k};
        label removed:
        DisposeRecordLight(d, s);
        forall o | o in registry ensures Entry(o) {
          assert old@removed(Entry(o));
          assert registry[o].light != null ==> registry[o].light != d.light;
        }
      }
    }

    /** The everyone branch of CleanupFlashlight: dispose every light, then clear. */
    method CleanupAllData()
      requires Valid()
      modifies this`registry, this`sessions, LightHandles, world
      ensures Valid() && registry == map[]
      ensures (sessions, world.View()) == CleanupAll(old(sessions), old(world.View()))
      ensures forall k :: k in old(registry) && old(registry[k].light) != null ==>
                old(registry[k].light).disposed && old(registry[k].light).entity.None?
    {
      forall k | k in registry
        ensures LightMatches(k, sessions[k])
      {
        assert Entry(k) && SessionOk(sessions[k], world.View());
      }
      DisposeAllLights(sessions);
      registry := map[];
      sessions := map[];
    }

    /** The record under `k` holds a light exactly when `s` does, and an undisposed one showing `s`'s light. */
    ghost predicate LightMatches(k: SteamId, s: Session)
      requires k in registry
      reads this, registry[k], registry[k].light
    {
      && (registry[k].light == null <==> s.light.None?)
      && (registry[k].light != null ==>
            && registry[k].light in LightHandles && registry[k].light.player == k && registry[k].light.world == world
            && registry[k].light.View() == s.light.value && !s.light.value.disposed)
    }

    /** The `foreach` over the records: every light is disposed, and the engine loses every held entity. */
    method DisposeAllLights(ghost s0: Registry)
      requires registry.Keys == s0.Keys && Consistent(world.View())
      requires forall k :: k in registry ==> LightMatches(k, s0[k])
      modifies LightHandles, world
      ensures world.View() == CleanupAll(s0, old(world.View())).1
      ensures forall k :: k in registry && registry[k].light != null ==>
                registry[k].light.disposed && registry[k].light.entity.None?
    {
      ghost var w0 := world.View();
      var keys := registry.Keys;
      ghost var gone: set<EntityId> := {};
      RemoveKeys(s0);
      while keys != {}
        invariant keys <= registry.Keys
        invariant forall k :: k in keys ==> LightMatches(k, s0[k])
        invariant forall k :: k in registry && k !in keys && registry[k].light != null ==>
                    registry[k].light.disposed && registry[k].light.entity.None?
        invariant Consistent(world.View()) && world.next == w0.next
        invariant gone == HeldSet(s0 - keys)
        invariant world.live == w0.live - gone && world.placed == w0.placed - gone
        decreases keys
      {
        var k :| k in keys;
        var d := registry[k];
        HeldSetStep(s0, keys, k);
        DisposeSessionDropsHeld(s0[k], world.View());
        SubtractInTurn(w0.live, gone, HeldOf(s0[k]));
        UnplaceInTurn(w0.placed, gone, HeldOf(s0[k]));
        DisposeRecordLight(d, s0[k]);
        keys := keys - {k};
        gone := gone + HeldOf(s0[k]);
      }
      RemoveKeys(s0);
    }

    /** `data.Flashlight?.Dispose()`: only the record's light handle and the engine change. */
    method DisposeRecordLight(d: FlashlightData, ghost s: Session)
      requires d.light == null <==> s.light.None?
      requires d.light != null ==> d.light.world == world && d.light.View() == s.light.value
      modifies d.light, world
      ensures world.View() == DisposeSession(s, old(world.View()))
      ensures d.light != null ==> d.light.disposed && (!old(d.light.disposed) ==> d.light.entity.None?)
    {
      if d.light != null {
        d.light.Dispose();
      }
    }

    /**
     * The CheckTransmit listener for one recipient: drop every other
     * session's valid light entity from what the recipient is sent.
     */
    method HideOtherLights(info: TransmitInfo, recipient: SteamId)
      requires Valid()
      modifies info
      ensures info.entities == old(info.entities) - HiddenFrom(sessions, world.View(), recipient)
    {
      var keys := registry.Keys;
      while keys != {}
        invariant keys <= registry.Keys
        invariant info.entities == old(info.entities) - HiddenFrom(sessions - keys, world.View(), recipient)
        decreases keys
      {
        var k :| k in keys;
        HiddenFromStep(sessions, world.View(), recipient, keys, k);
        if k != recipient {
          var light := registry[k].light;
          if light != null && light.entity.Some? && light.entity.value in world.live {
            info.entities := info.entities - {light.entity.value};
          }
        }
        keys := keys - {k};
      }
      RemoveKeys(sessions);
    }

    /** The CheckTransmit listener: registered only when hiding is enabled; null players are skipped. */
    method CheckTransmit(infos: seq<TransmitInfo>, players: seq<Option<Player>>)
      requires Valid() && |infos| == |players|
      requires forall i, j :: 0 <= i < j < |infos| ==> infos[i] != infos[j]
      modifies set i | 0 <= i < |infos| :: infos[i]
      ensures forall i :: 0 <= i < |infos| ==>
                infos[i].entities == if !hideOtherFlashlights || players[i].None? then old(infos[i].entities)
                                     else old(infos[i].entities) - HiddenFrom(sessions, world.View(), players[i].value.steamId)
    {
      if !hideOtherFlashlights {
        return;
      }
      for i := 0 to |infos|
        invariant forall j :: 0 <= j < i ==>
                    infos[j].entities == if players[j].None? then old(infos[j].entities)
                                         else old(infos[j].entities) - HiddenFrom(sessions, world.View(), players[j].value.steamId)
        invariant forall j :: i <= j < |infos| ==> infos[j].entities == old(infos[j].entities)
      {
        if players[i].None? {
          continue;
        }
        HideOtherLights(infos[i], players[i].value.steamId);
      }
    }
  }
}

=== FILE: registry.dfy ===
/**
 * The plugin's session registry (`_flashlightData`) as a map value, the
 * per-tick and per-command paths that fill it, the cleanup that empties it,
 * and the visibility filter that reads it.
 */
module Registry {
  import opened Wrappers
  import opened Engine
  import opened Buttons
  import Lights
  import opened Sessions

  /** A player's SteamID (a `ulong`). */
  type SteamId = nat

  type Registry = map<SteamId, Session>

  /** What the host reports about a connected player controller. */
  datatype Player = Player(
    steamId: SteamId,
    userId: Option<int>,
    isValid: bool,
    isBot: bool,
    isHltv: bool,
    pawnValid: bool,
    pawn: Option<Pose>,
    buttons: Mask)

  /** IsValidPlayer: a real, connected human with a valid pawn. */
  predicate IsValidPlayer(p: Option<Player>) {
    p.Some? && p.value.isValid && !p.value.isBot && !p.value.isHltv && p.value.pawnValid
  }

  /** Insert-on-first-use lookup. */
  function GetOrCreate(reg: Registry, k: SteamId): (r: Registry)
    ensures k in r && r.Keys == reg.Keys + {k}
    ensures k in reg ==> r == reg
    ensures k !in reg ==> r[k] == NewSession
    ensures forall o :: o in reg ==> r[o] == reg[o]
  {
    if k in reg then reg else reg[k := NewSession]
  }

  lemma GetOrCreateIdempotent(reg: Registry, k: SteamId)
    ensures GetOrCreate(GetOrCreate(reg, k), k) == GetOrCreate(reg, k)
  {
  }

  /** Two writes to the same key leave only the second. */
  lemma OverwriteSession(reg: Registry, k: SteamId, a: Session, b: Session)
    ensures reg[k := a][k := b] == reg[k := b]
  {
  }

  /** Writing back a key's own session changes nothing. */
  lemma KeepSession(reg: Registry, k: SteamId)
    requires k in reg
    ensures reg[k := reg[k]] == reg
  {
  }

  /** Taking away every key leaves the empty registry; taking away none leaves it whole. */
  lemma RemoveKeys(reg: Registry)
    ensures reg - reg.Keys == map[] && reg - {} == reg
  {
  }

  // ---------------------------------------------------------------------------
  // Ownership: every light entity belongs to exactly one session.

  /** A session's light is never disposed, and any entity it holds was handed out already. */
  ghost predicate SessionOk(s: Session, w: WorldView) {
    s.light.Some? ==> !s.light.value.disposed && (Held(s).Some? ==> Held(s).value < w.next)
  }

  /** The entity the session under `k` holds. */
  ghost function HeldBy(reg: Registry, k: SteamId): Option<EntityId>
    requires k in reg
  {
    Held(reg[k])
  }

  ghost predicate Owned(reg: Registry, w: WorldView) {
    && Consistent(w)
    && (forall k {:trigger SessionOk(reg[k], w)} :: k in reg ==> SessionOk(reg[k], w))
    && (forall k1, k2 {:trigger HeldBy(reg, k1), HeldBy(reg, k2)} ::
          k1 in reg && k2 in reg && k1 != k2 && HeldBy(reg, k1).Some? ==> HeldBy(reg, k1) != HeldBy(reg, k2))
  }

  /**
   * Replacing one session keeps ownership when the new session holds nothing,
   * what it held before, or the id the engine handed out next.
   */
  lemma ReplaceKeepsOwned(reg: Registry, w: WorldView, k: SteamId, s1: Session, w1: WorldView)
    requires Owned(reg, w) && k in reg && Consistent(w1) && w1.next >= w.next
    requires SessionOk(s1, w1)
    requires Held(s1).None? || Held(s1) == Held(reg[k]) || Held(s1) == Some(w.next)
    ensures Owned(reg[k := s1], w1)
  {
    var r := reg[k := s1];
    forall o | o in r ensures SessionOk(r[o], w1) {
      if o != k {
        assert SessionOk(reg[o], w);
      }
    }
    forall k1, k2 | k1 in r && k2 in r && k1 != k2 && HeldBy(r, k1).Some?
      ensures HeldBy(r, k1) != HeldBy(r, k2)
    {
      if (k1 != k && k2 != k) || Held(s1) == Held(reg[k]) {
        assert HeldBy(reg, k1) != HeldBy(reg, k2);
      } else if Held(s1) == Some(w.next) {
        var o := if k1 == k then k2 else k1;
        assert SessionOk(reg[o], w);
      }
    }
  }

  lemma ToggleKeepsOwned(reg: Registry, w: WorldView, k: SteamId, answer: HostAnswer, pawn: Option<Pose>)
    requires Owned(reg, w) && k in reg
    ensures var (s1, w1) := Toggle(reg[k], w, answer, pawn); Owned(reg[k := s1], w1)
  {
    var (s1, w1) := Toggle(reg[k], w, answer, pawn);
    if reg[k].light.None? {
      Lights.CreateOutcome(w, answer, pawn);
    }
    ReplaceKeepsOwned(reg, w, k, s1, w1);
  }

  lemma ButtonStepKeepsOwned(reg: Registry, w: WorldView, k: SteamId, buttons: Mask, mask: Mask,
                                                now: Millis, answer: HostAnswer, pawn: Option<Pose>)
    requires Owned(reg, w) && k in reg
    ensures var (s1, w1) := ButtonStep(reg[k], w, buttons, mask, now, answer, pawn); Owned(reg[k := s1], w1)
  {
    var s := reg[k];
    assert SessionOk(s, w);
    if HasFlag(buttons, mask) && !s.wasPressed && !CoolingDown(s, now) {
      ToggleKeepsOwned(reg, w, k, answer, pawn);
      var (t1, tw) := Toggle(s, w, answer, pawn);
      ReplaceKeepsOwned(reg[k := t1], tw, k, t1.(lastToggle := now, wasPressed := true), tw);
      assert reg[k := t1][k := t1.(lastToggle := now, wasPressed := true)]
          == reg[k := t1.(lastToggle := now, wasPressed := true)];
    } else {
      ReplaceKeepsOwned(reg, w, k, ButtonStep(s, w, buttons, mask, now, answer, pawn).0, w);
    }
  }

  /** Inserting a new session keeps ownership. */
  lemma InsertKeepsOwned(reg: Registry, w: WorldView, k: SteamId)
    requires Owned(reg, w)
    ensures Owned(GetOrCreate(reg, k), w)
  {
    var r := GetOrCreate(reg, k);
    forall o | o in r ensures SessionOk(r[o], w) {
      if o in reg {
        assert SessionOk(reg[o], w);
      }
    }
    forall k1, k2 | k1 in r && k2 in r && k1 != k2 && HeldBy(r, k1).Some?
      ensures HeldBy(r, k1) != HeldBy(r, k2)
    {
      if k1 in reg && k2 in reg {
        assert HeldBy(reg, k1) != HeldBy(reg, k2);
      }
    }
  }

  // ---------------------------------------------------------------------------
  // The command and tick paths.

  /** ToggleFlashlightCommand: valid players get a session if needed and toggle it. */
  function Command(reg: Registry, w: WorldView, player: Option<Player>, answer: HostAnswer): (r: (Registry, WorldView))
    ensures !IsValidPlayer(player) ==> r == (reg, w)
    ensures IsValidPlayer(player) ==>
              var k := player.value.steamId;
              && r.0.Keys == reg.Keys + {k}
              && (forall o :: o in reg && o != k ==> r.0[o] == reg[o])
              && (r.0[k], r.1) == Toggle(GetOrCreate(reg, k)[k], w, answer, player.value.pawn)
  {
    if !IsValidPlayer(player) then (reg, w)
    else
      var k := player.value.steamId;
      var reg1 := GetOrCreate(reg, k);
      var (s1, w1) := Toggle(reg1[k], w, answer, player.value.pawn);
      (reg1[k := s1], w1)
  }

  lemma CommandKeepsOwned(reg: Registry, w: WorldView, player: Option<Player>, answer: HostAnswer)
    requires Owned(reg, w)
    ensures var (r, w1) := Command(reg, w, player, answer); Owned(r, w1)
  {
    if IsValidPlayer(player) {
      var k := player.value.steamId;
      var reg1 := GetOrCreate(reg, k);
      InsertKeepsOwned(reg, w, k);
      ToggleKeepsOwned(reg1, w, k, answer, player.value.pawn);
    }
  }

  /** One iteration of OnTick for one player. */
  function PlayerTick(reg: Registry, w: WorldView, p: Player, detect: bool, mask: Mask,
                      now: Millis, answer: HostAnswer): (r: (Registry, WorldView))
    ensures !IsValidPlayer(Some(p)) ==> r == (reg, w)
    ensures IsValidPlayer(Some(p)) ==>
              && r.0.Keys == reg.Keys + {p.steamId}
              && (forall o :: o in reg && o != p.steamId ==> r.0[o] == reg[o])
    ensures IsValidPlayer(Some(p)) ==>
              var s := GetOrCreate(reg, p.steamId)[p.steamId];
              var (s1, w1) := if detect then ButtonStep(s, w, p.buttons, mask, now, answer, p.pawn) else (s, w);
              && r.0[p.steamId] == s1
              && r.1 == if s1.light.Some? then Lights.Teleport(s1.light.value, w1, p.pawn) else w1
  {
    if !IsValidPlayer(Some(p)) then (reg, w)
    else
      var k := p.steamId;
      var reg1 := GetOrCreate(reg, k);
      var s := reg1[k];
      var (s1, w1) := if detect then ButtonStep(s, w, p.buttons, mask, now, answer, p.pawn) else (s, w);
      var w2 := if s1.light.Some? then Lights.Teleport(s1.light.value, w1, p.pawn) else w1;
      (reg1[k := s1], w2)
  }

  lemma PlayerTickKeepsOwned(reg: Registry, w: WorldView, p: Player, detect: bool, mask: Mask,
                                                now: Millis, answer: HostAnswer)
    requires Owned(reg, w)
    ensures var (r, w1) := PlayerTick(reg, w, p, detect, mask, now, answer); Owned(r, w1)
  {
    if IsValidPlayer(Some(p)) {
      var k := p.steamId;
      var reg1 := GetOrCreate(reg, k);
      InsertKeepsOwned(reg, w, k);
      var s := reg1[k];
      var (s1, w1) := if detect then ButtonStep(s, w, p.buttons, mask, now, answer, p.pawn) else (s, w);
      if detect {
        ButtonStepKeepsOwned(reg1, w, k, p.buttons, mask, now, answer, p.pawn);
      } else {
        assert reg1[k := s1] == reg1;
      }
      assert Owned(reg1[k := s1], w1);
      var w2 := if s1.light.Some? then Lights.Teleport(s1.light.value, w1, p.pawn) else w1;
      var r1 := reg1[k := s1];
      assert forall o :: o in r1 ==> SessionOk(r1[o], w1);
      assert forall o :: o in r1 ==> SessionOk(r1[o], w2);
    }
  }

  /** OnTick: the players in the order the host lists them, one host answer per player. */
  function Tick(reg: Registry, w: WorldView, players: seq<Player>, answers: seq<HostAnswer>,
                detect: bool, mask: Mask, now: Millis): (Registry, WorldView)
    requires |answers| == |players|
    decreases |players|
  {
    if players == [] then (reg, w)
    else
      var n := |players| - 1;
      var (r1, w1) := Tick(reg, w, players[..n], answers[..n], detect, mask, now);
      PlayerTick(r1, w1, players[n], detect, mask, now, answers[n])
  }

  /** The SteamIDs of the valid players in a list. */
  function ValidIds(players: seq<Player>): set<SteamId> {
    set i | 0 <= i < |players| && IsValidPlayer(Some(players[i])) :: players[i].steamId
  }

  /**
   * A tick registers exactly the valid players it sees: keys already present
   * stay, and a key is added only for a valid player.
   */
  lemma {:induction false} TickKeys(reg: Registry, w: WorldView, players: seq<Player>, answers: seq<HostAnswer>,
                                    detect: bool, mask: Mask, now: Millis)
    requires |answers| == |players|
    ensures Tick(reg, w, players, answers, detect, mask, now).0.Keys == reg.Keys + ValidIds(players)
    decreases |players|
  {
    if players != [] {
      var n := |players| - 1;
      TickKeys(reg, w, players[..n], answers[..n], detect, mask, now);
      var last := if IsValidPlayer(Some(players[n])) then {players[n].steamId} else {};
      assert ValidIds(players) == ValidIds(players[..n]) + last by {
        forall id | id in ValidIds(players) ensures id in ValidIds(players[..n]) + last {
          var i :| 0 <= i < |players| && IsValidPlayer(Some(players[i])) && players[i].steamId == id;
          if i < n {
            assert players[..n][i] == players[i];
          }
        }
      }
    }
  }

  /** A tick leaves the session of every key that no valid player in it owns untouched. */
  lemma {:induction false} TickTouchesOnlyValidPlayers(reg: Registry, w: WorldView, players: seq<Player>,
                                                       answers: seq<HostAnswer>, detect: bool, mask: Mask,
                                                       now: Millis, k: SteamId)
    requires |answers| == |players| && k in reg && k !in ValidIds(players)
    ensures var r := Tick(reg, w, players, answers, detect, mask, now).0; k in r && r[k] == reg[k]
    decreases |players|
  {
    if players != [] {
      var n := |players| - 1;
      assert k !in ValidIds(players[..n]) by {
        forall i | 0 <= i < n && IsValidPlayer(Some(players[..n][i])) ensures players[..n][i].steamId != k {
          assert players[..n][i] == players[i];
        }
      }
      TickTouchesOnlyValidPlayers(reg, w, players[..n], answers[..n], detect, mask, now, k);
      if IsValidPlayer(Some(players[n])) {
        assert players[n].steamId in ValidIds(players);
      }
    }
  }

  lemma {:induction false} TickKeepsOwned(reg: Registry, w: WorldView, players: seq<Player>, answers: seq<HostAnswer>,
                                          detect: bool, mask: Mask, now: Millis)
    requires |answers| == |players| && Owned(reg, w)
    ensures var (r, w1) := Tick(reg, w, players, answers, detect, mask, now); Owned(r, w1)
    decreases |players|
  {
    if players != [] {
      var n := |players| - 1;
      TickKeepsOwned(reg, w, players[..n], answers[..n], detect, mask, now);
      var (r1, w1) := Tick(reg, w, players[..n], answers[..n], detect, mask, now);
      PlayerTickKeepsOwned(r1, w1, players[n], detect, mask, now, answers[n]);
    }
  }

  /**
   * Consecutive ticks that list one player only, with button detection on and
   * the same buttons and pawn each time: one tick per entry of `times`.
   */
  function HeldTicks(reg: Registry, w: WorldView, p: Player, mask: Mask, times: seq<Millis>,
                     answers: seq<HostAnswer>): (Registry, WorldView)
    requires |answers| == |times|
    decreases |times|
  {
    if times == [] then (reg, w)
    else
      var (r1, w1) := Tick(reg, w, [p], [answers[0]], true, mask, times[0]);
      HeldTicks(r1, w1, p, mask, times[1..], answers[1..])
  }

  /** What a button step does to the session, the live set and the next id ignores the pose table. */
  lemma ButtonStepIgnoresPoses(s: Session, w: WorldView, w': WorldView, buttons: Mask, mask: Mask,
                               now: Millis, answer: HostAnswer, pawn: Option<Pose>)
    requires w.live == w'.live && w.next == w'.next
    ensures var (s1, w1) := ButtonStep(s, w, buttons, mask, now, answer, pawn);
            var (s2, w2) := ButtonStep(s, w', buttons, mask, now, answer, pawn);
            s1 == s2 && w1.live == w2.live && w1.next == w2.next
  {
  }

  /**
   * Holding the button across ticks drives the player's session exactly as the
   * continuous hold `Hold` does, so the hold lemmas apply to the tick path.
   */
  lemma {:induction false} HeldTicksFollowHold(reg: Registry, w: WorldView, w': WorldView, p: Player, mask: Mask,
                                               times: seq<Millis>, answers: seq<HostAnswer>)
    requires |answers| == |times| && IsValidPlayer(Some(p)) && (p.steamId in reg || times != [])
    requires w.live == w'.live && w.next == w'.next
    ensures var (r, w1) := HeldTicks(reg, w, p, mask, times, answers);
            var (s2, w2) := Hold(GetOrCreate(reg, p.steamId)[p.steamId], w', p.buttons, mask, times, answers, p.pawn);
            p.steamId in r && r[p.steamId] == s2 && w1.live == w2.live && w1.next == w2.next
    decreases |times|
  {
    var k := p.steamId;
    if times != [] {
      var (r1, w1) := Tick(reg, w, [p], [answers[0]], true, mask, times[0]);
      assert [p][..0] == [] && [answers[0]][..0] == [];
      assert Tick(reg, w, [], [], true, mask, times[0]) == (reg, w);
      assert (r1, w1) == PlayerTick(reg, w, p, true, mask, times[0], answers[0]);
      var s := GetOrCreate(reg, k)[k];
      ButtonStepIgnoresPoses(s, w, w', p.buttons, mask, times[0], answers[0], p.pawn);
      var (s2, w2) := ButtonStep(s, w', p.buttons, mask, times[0], answers[0], p.pawn);
      assert r1[k] == s2 && GetOrCreate(r1, k) == r1;
      HeldTicksFollowHold(r1, w1, w2, p, mask, times[1..], answers[1..]);
    }
  }

  /** Once a player's edge flag is latched, holding on across ticks never changes the session. */
  lemma LatchedTicksKeepSession(reg: Registry, w: WorldView, p: Player, mask: Mask,
                                times: seq<Millis>, answers: seq<HostAnswer>)
    requires |answers| == |times| && IsValidPlayer(Some(p)) && HasFlag(p.buttons, mask)
    requires p.steamId in reg && reg[p.steamId].wasPressed
    ensures var r := HeldTicks(reg, w, p, mask, times, answers).0; p.steamId in r && r[p.steamId] == reg[p.steamId]
  {
    HeldTicksFollowHold(reg, w, w, p, mask, times, answers);
    LatchedHoldIsInert(reg[p.steamId], w, p.buttons, mask, times, answers, p.pawn);
  }

  /**
   * From a clear edge flag, holding on across ticks turns the light on or off
   * exactly when some tick falls outside the cooldown, and at most once.
   */
  lemma HeldTicksToggleOnce(reg: Registry, w: WorldView, p: Player, mask: Mask,
                            times: seq<Millis>, answers: seq<HostAnswer>)
    requires |answers| == |times| && IsValidPlayer(Some(p)) && HasFlag(p.buttons, mask)
    requires p.steamId in reg && !reg[p.steamId].wasPressed
    ensures var s := reg[p.steamId];
            var r := HeldTicks(reg, w, p, mask, times, answers).0;
            && p.steamId in r
            && HoldToggles(s, w, p.buttons, mask, times, answers, p.pawn)
               == (if exists i :: 0 <= i < |times| && !CoolingDown(s, times[i]) then 1 else 0)
            && r[p.steamId] == Hold(s, w, p.buttons, mask, times, answers, p.pawn).0
  {
    HeldTicksFollowHold(reg, w, w, p, mask, times, answers);
    HoldTogglesOnce(reg[p.steamId], w, p.buttons, mask, times, answers, p.pawn);
  }

  // ---------------------------------------------------------------------------
  // Cleanup.

  /** The entities held by the sessions of a registry. */
  function HeldSet(reg: Registry): set<EntityId> {
    set k | k in reg && Held(reg[k]).Some? :: Held(reg[k]).value
  }

  /** The entity a session holds, as a set. */
  function HeldOf(s: Session): set<EntityId> {
    if Held(s).Some? then {Held(s).value} else {}
  }

  /** Taking one more key into account adds exactly that key's entity. */
  lemma HeldSetStep(reg: Registry, keys: set<SteamId>, k: SteamId)
    requires k in keys && k in reg
    ensures HeldSet(reg - (keys - {k})) == HeldSet(reg - keys) + HeldOf(reg[k])
  {
    var a, b := reg - (keys - {k}), reg - keys;
    forall e | e in HeldSet(a) ensures e in HeldSet(b) + HeldOf(reg[k]) {
      var o :| o in a && Held(a[o]).Some? && Held(a[o]).value == e;
      if o != k {
        assert o in b && b[o] == a[o];
      }
    }
    forall e | e in HeldSet(b) + HeldOf(reg[k]) ensures e in HeldSet(a) {
      if e in HeldSet(b) {
        var o :| o in b && Held(b[o]).Some? && Held(b[o]).value == e;
        assert o in a && a[o] == b[o];
      } else {
        assert k in a && a[k] == reg[k];
      }
    }
  }

  /** The engine after disposing a session's light, if it has one. */
  function DisposeSession(s: Session, w: WorldView): (r: WorldView)
    ensures s.light.Some? && !s.light.value.disposed && Held(s).Some? ==> Held(s).value !in r.live
    ensures r.live == w.live - (if s.light.Some? && !s.light.value.disposed && Held(s).Some? then {Held(s).value} else {})
    ensures r.next == w.next
    ensures Consistent(w) ==> Consistent(r)
  {
    if s.light.Some? then Lights.Dispose(s.light.value, w).1 else w
  }

  /** Removing two batches of entities in turn removes their union. */
  lemma SubtractInTurn(a: set<EntityId>, b: set<EntityId>, c: set<EntityId>)
    ensures a - b - c == a - (b + c)
  {
  }

  /** The same for the placement table. */
  lemma UnplaceInTurn(a: map<EntityId, Pose>, b: set<EntityId>, c: set<EntityId>)
    ensures a - b - c == a - (b + c)
  {
  }

  /** Disposing an undisposed session's light takes exactly its entity out of the world. */
  lemma DisposeSessionDropsHeld(s: Session, w: WorldView)
    requires Consistent(w) && (s.light.Some? ==> !s.light.value.disposed)
    ensures var r := DisposeSession(s, w);
            r.live == w.live - HeldOf(s) && r.placed == w.placed - HeldOf(s) && r.next == w.next
  {
    if Held(s).Some? && Held(s).value !in w.live {
      assert Held(s).value !in w.placed;
    }
  }

  /** CleanupFlashlight for one player: erase the key, then dispose its light. */
  function CleanupOne(reg: Registry, w: WorldView, k: SteamId): (r: (Registry, WorldView))
    ensures r.0 == reg - {k}
    ensures k !in reg ==> r.1 == w
    ensures k in reg ==> r.1 == DisposeSession(reg[k], w)
  {
    if k in reg then (reg - {k}, DisposeSession(reg[k], w)) else (reg, w)
  }

  /** CleanupFlashlight for everyone: every held entity removed, the registry emptied. */
  function CleanupAll(reg: Registry, w: WorldView): (r: (Registry, WorldView))
    ensures r.0 == map[]
    ensures r.1.live == w.live - HeldSet(reg) && r.1.next == w.next
    ensures Consistent(w) ==> Consistent(r.1)
  {
    (map[], w.(live := w.live - HeldSet(reg), placed := w.placed - HeldSet(reg)))
  }

  /** CleanupFlashlight: a player with a user id is cleaned alone; otherwise everyone is. */
  function Cleanup(reg: Registry, w: WorldView, player: Option<Player>): (r: (Registry, WorldView))
    ensures player.Some? && player.value.userId.Some? ==> r == CleanupOne(reg, w, player.value.steamId)
    ensures player.None? || player.value.userId.None? ==> r == CleanupAll(reg, w)
  {
    if player.Some? && player.value.userId.Some? then CleanupOne(reg, w, player.value.steamId)
    else CleanupAll(reg, w)
  }

  /**
   * Cleaning one player: only that key goes, every other session stays as it
   * was, and the entity the removed session held is no longer live.
   */
  lemma CleanupOneLeavesNoLiveEntity(reg: Registry, w: WorldView, k: SteamId)
    requires Owned(reg, w) && k in reg
    ensures var (r, w1) := CleanupOne(reg, w, k);
            && r.Keys == reg.Keys - {k}
            && (forall o :: o in r ==> r[o] == reg[o])
            && (Held(reg[k]).Some? ==> Held(reg[k]).value !in w1.live)
            && w1.live == w.live - (if Held(reg[k]).Some? then {Held(reg[k]).value} else {})
  {
    assert SessionOk(reg[k], w);
  }

  /** Cleaning everyone leaves no live entity that any session held. */
  lemma CleanupAllLeavesNoLiveEntity(reg: Registry, w: WorldView, base: set<EntityId>)
    ensures var (r, w1) := CleanupAll(reg, w);
            && r == map[]
            && (forall k :: k in reg && Held(reg[k]).Some? ==> Held(reg[k]).value !in w1.live)
            && (NoOrphan(reg, w, base) ==> w1.live <= base)
  {
  }

  lemma CleanupKeepsOwned(reg: Registry, w: WorldView, player: Option<Player>)
    requires Owned(reg, w)
    ensures var (r, w1) := Cleanup(reg, w, player); Owned(r, w1)
  {
    if player.Some? && player.value.userId.Some? {
      CleanupOneKeepsOwned(reg, w, player.value.steamId);
    }
  }

  lemma CleanupOneKeepsOwned(reg: Registry, w: WorldView, k: SteamId)
    requires Owned(reg, w)
    ensures var (r, w1) := CleanupOne(reg, w, k); Owned(r, w1)
  {
    var (r, w1) := CleanupOne(reg, w, k);
    assert forall o :: o in r ==> o in reg && r[o] == reg[o];
    assert forall o :: o in r ==> SessionOk(r[o], w1) by {
      forall o | o in r ensures SessionOk(r[o], w1) {
        assert SessionOk(reg[o], w);
      }
    }
    forall k1, k2 | k1 in r && k2 in r && k1 != k2 && HeldBy(r, k1).Some?
      ensures HeldBy(r, k1) != HeldBy(r, k2)
    {
      assert HeldBy(reg, k1) != HeldBy(reg, k2);
    }
  }

  // ---------------------------------------------------------------------------
  // No orphaned lights: every live entity is held by a session or is one of
  // the `base` entities the engine had before the plugin created any.

  ghost predicate NoOrphan(reg: Registry, w: WorldView, base: set<EntityId>) {
    w.live <= HeldSet(reg) + base
  }

  /** The held entities of a registry split into one key's and the rest's. */
  lemma HeldSetReplace(reg: Registry, k: SteamId, s: Session)
    ensures HeldSet(reg[k := s]) == HeldSet(reg - {k}) + HeldOf(s)
    ensures k in reg ==> HeldSet(reg) == HeldSet(reg - {k}) + HeldOf(reg[k])
    ensures k !in reg ==> HeldSet(reg - {k}) == HeldSet(reg)
  {
    var a, b := reg[k := s], reg - {k};
    forall e | e in HeldSet(a) ensures e in HeldSet(b) + HeldOf(s) {
      var o :| o in a && Held(a[o]).Some? && Held(a[o]).value == e;
      if o != k {
        assert o in b && b[o] == a[o];
      }
    }
    forall e | e in HeldSet(b) + HeldOf(s) ensures e in HeldSet(a) {
      if e in HeldSet(b) {
        var o :| o in b && Held(b[o]).Some? && Held(b[o]).value == e;
        assert o in a && a[o] == b[o];
      } else {
        assert k in a && a[k] == s;
      }
    }
    if k in reg {
      forall e | e in HeldSet(reg) ensures e in HeldSet(b) + HeldOf(reg[k]) {
        var o :| o in reg && Held(reg[o]).Some? && Held(reg[o]).value == e;
        if o != k {
          assert o in b && b[o] == reg[o];
        }
      }
      forall e | e in HeldSet(b) ensures e in HeldSet(reg) {
        var o :| o in b && Held(b[o]).Some? && Held(b[o]).value == e;
        assert o in reg && reg[o] == b[o];
      }
    } else {
      assert b == reg;
    }
  }

  /**
   * Replacing one session keeps every live entity accounted for, provided the
   * engine gains no entity the new session does not hold and keeps only what
   * the old session did not hold.
   */
  lemma ReplaceNoOrphan(reg: Registry, w: WorldView, base: set<EntityId>, k: SteamId, s1: Session, w1: WorldView)
    requires NoOrphan(reg, w, base) && k in reg
    requires w1.live <= (w.live - HeldOf(reg[k])) + HeldOf(s1)
    ensures NoOrphan(reg[k := s1], w1, base)
  {
    HeldSetReplace(reg, k, s1);
  }

  lemma ToggleNoOrphan(reg: Registry, w: WorldView, base: set<EntityId>, k: SteamId, answer: HostAnswer, pawn: Option<Pose>)
    requires Owned(reg, w) && NoOrphan(reg, w, base) && k in reg
    ensures var (s1, w1) := Toggle(reg[k], w, answer, pawn); NoOrphan(reg[k := s1], w1, base)
  {
    var (s1, w1) := Toggle(reg[k], w, answer, pawn);
    assert SessionOk(reg[k], w);
    if reg[k].light.None? {
      Lights.CreateOutcome(w, answer, pawn);
    }
    ReplaceNoOrphan(reg, w, base, k, s1, w1);
  }

  lemma ButtonStepNoOrphan(reg: Registry, w: WorldView, base: set<EntityId>, k: SteamId, buttons: Mask, mask: Mask,
                           now: Millis, answer: HostAnswer, pawn: Option<Pose>)
    requires Owned(reg, w) && NoOrphan(reg, w, base) && k in reg
    ensures var (s1, w1) := ButtonStep(reg[k], w, buttons, mask, now, answer, pawn); NoOrphan(reg[k := s1], w1, base)
  {
    var s := reg[k];
    var (s1, w1) := ButtonStep(s, w, buttons, mask, now, answer, pawn);
    if HasFlag(buttons, mask) && !s.wasPressed && !CoolingDown(s, now) {
      ToggleNoOrphan(reg, w, base, k, answer, pawn);
      var (t1, tw) := Toggle(s, w, answer, pawn);
      HeldSetReplace(reg, k, t1);
      HeldSetReplace(reg, k, s1);
    } else {
      ReplaceNoOrphan(reg, w, base, k, s1, w1);
    }
  }

  /** A new session holds nothing, so inserting one changes no held entity. */
  lemma InsertNoOrphan(reg: Registry, w: WorldView, base: set<EntityId>, k: SteamId)
    requires NoOrphan(reg, w, base)
    ensures NoOrphan(GetOrCreate(reg, k), w, base)
  {
    if k !in reg {
      HeldSetReplace(reg, k, NewSession);
    }
  }

  lemma CommandNoOrphan(reg: Registry, w: WorldView, base: set<EntityId>, player: Option<Player>, answer: HostAnswer)
    requires Owned(reg, w) && NoOrphan(reg, w, base)
    ensures var (r, w1) := Command(reg, w, player, answer); NoOrphan(r, w1, base)
  {
    if IsValidPlayer(player) {
      var k := player.value.steamId;
      InsertKeepsOwned(reg, w, k);
      InsertNoOrphan(reg, w, base, k);
      ToggleNoOrphan(GetOrCreate(reg, k), w, base, k, answer, player.value.pawn);
    }
  }

  lemma PlayerTickNoOrphan(reg: Registry, w: WorldView, base: set<EntityId>, p: Player, detect: bool, mask: Mask,
                           now: Millis, answer: HostAnswer)
    requires Owned(reg, w) && NoOrphan(reg, w, base)
    ensures var (r, w1) := PlayerTick(reg, w, p, detect, mask, now, answer); NoOrphan(r, w1, base)
  {
    if IsValidPlayer(Some(p)) {
      var k := p.steamId;
      var reg1 := GetOrCreate(reg, k);
      InsertKeepsOwned(reg, w, k);
      InsertNoOrphan(reg, w, base, k);
      if detect {
        ButtonStepNoOrphan(reg1, w, base, k, p.buttons, mask, now, answer, p.pawn);
      } else {
        assert reg1[k := reg1[k]] == reg1;
      }
    }
  }

  lemma {:induction false} TickNoOrphan(reg: Registry, w: WorldView, base: set<EntityId>, players: seq<Player>,
                                        answers: seq<HostAnswer>, detect: bool, mask: Mask, now: Millis)
    requires |answers| == |players| && Owned(reg, w) && NoOrphan(reg, w, base)
    ensures var (r, w1) := Tick(reg, w, players, answers, detect, mask, now); NoOrphan(r, w1, base)
    decreases |players|
  {
    if players != [] {
      var n := |players| - 1;
      TickKeepsOwned(reg, w, players[..n], answers[..n], detect, mask, now);
      TickNoOrphan(reg, w, base, players[..n], answers[..n], detect, mask, now);
      var (r1, w1) := Tick(reg, w, players[..n], answers[..n], detect, mask, now);
      PlayerTickNoOrphan(r1, w1, base, players[n], detect, mask, now, answers[n]);
    }
  }

  /**
   * Cleanup keeps every live entity accounted for; cleaning everyone leaves
   * no live entity but the engine's own.
   */
  lemma CleanupNoOrphan(reg: Registry, w: WorldView, base: set<EntityId>, player: Option<Player>)
    requires Owned(reg, w) && NoOrphan(reg, w, base)
    ensures var (r, w1) := Cleanup(reg, w, player); NoOrphan(r, w1, base)
    ensures player.None? || player.value.userId.None? ==> Cleanup(reg, w, player).1.live <= base
  {
    if player.Some? && player.value.userId.Some? {
      var k := player.value.steamId;
      if k in reg {
        assert SessionOk(reg[k], w);
        HeldSetReplace(reg, k, reg[k]);
      }
    } else {
      assert HeldSet(map[]) == {};
    }
  }

  // ---------------------------------------------------------------------------
  // Visibility filter.

  /** The valid light entities of every session other than the recipient's. */
  function HiddenFrom(reg: Registry, w: WorldView, recipient: SteamId): (r: set<EntityId>)
    ensures r <= w.live
    ensures forall k :: k in reg && k != recipient && IsValid(w, Held(reg[k])) ==> Held(reg[k]).value in r
  {
    set k | k in reg && k != recipient && IsValid(w, Held(reg[k])) :: Held(reg[k]).value
  }

  /** Taking one more key into account adds that key's entity when it is another's valid light. */
  lemma HiddenFromStep(reg: Registry, w: WorldView, recipient: SteamId, keys: set<SteamId>, k: SteamId)
    requires k in keys && k in reg
    ensures HiddenFrom(reg - (keys - {k}), w, recipient)
            == HiddenFrom(reg - keys, w, recipient)
               + (if k != recipient && IsValid(w, Held(reg[k])) then {Held(reg[k]).value} else {})
  {
    var a, b := reg - (keys - {k}), reg - keys;
    var extra := if k != recipient && IsValid(w, Held(reg[k])) then {Held(reg[k]).value} else {};
    forall e | e in HiddenFrom(a, w, recipient) ensures e in HiddenFrom(b, w, recipient) + extra {
      var o :| o in a && o != recipient && IsValid(w, Held(a[o])) && Held(a[o]).value == e;
      if o != k {
        assert o in b && b[o] == a[o];
      }
    }
    forall e | e in HiddenFrom(b, w, recipient) + extra ensures e in HiddenFrom(a, w, recipient) {
      if e in HiddenFrom(b, w, recipient) {
        var o :| o in b && o != recipient && IsValid(w, Held(b[o])) && Held(b[o]).value == e;
        assert o in a && a[o] == b[o];
      } else {
        assert k in a && a[k] == reg[k];
      }
    }
  }

  /** The recipient's own light is never hidden from it. */
  lemma OwnLightNeverHidden(reg: Registry, w: WorldView, recipient: SteamId)
    requires Owned(reg, w) && recipient in reg && Held(reg[recipient]).Some?
    ensures Held(reg[recipient]).value !in HiddenFrom(reg, w, recipient)
  {
    var e := Held(reg[recipient]).value;
    forall k | k in reg && k != recipient && IsValid(w, Held(reg[k])) ensures Held(reg[k]).value != e {
      assert HeldBy(reg, recipient) != HeldBy(reg, k);
    }
  }

  /** Exactly the other sessions' valid light entities are hidden. */
  lemma HiddenExactlyOthersLights(reg: Registry, w: WorldView, recipient: SteamId, e: EntityId)
    ensures e in HiddenFrom(reg, w, recipient) <==>
            exists k :: k in reg && k != recipient && Held(reg[k]) == Some(e) && e in w.live
  {
    if exists k :: k in reg && k != recipient && Held(reg[k]) == Some(e) && e in w.live {
      var k :| k in reg && k != recipient && Held(reg[k]) == Some(e) && e in w.live;
      assert IsValid(w, Held(reg[k]));
    }
  }
}

=== FILE: sessions.dfy ===
/**
 * One player's flashlight state (`FlashlightData`) as a value, and the two
 * ways it is toggled: the explicit command, which always toggles, and the
 * held-button path, which toggles on a rising edge outside the cooldown.
 */
module Sessions {
  import opened Wrappers
  import opened Engine
  import opened Buttons
  import Lights

  /** Milliseconds since DateTime.MinValue. */
  type Millis = nat

  /** TOGGLE_COOLDOWN, 0.25 s. */
  const ToggleCooldownMs: int := 250

  /** DateTime.MinValue, the initial LastToggleTime. */
  const MinToggleTime: Millis := 0

  datatype Session = Session(light: Option<Lights.LightView>, lastToggle: Millis, wasPressed: bool)

  /** `new FlashlightData()`: no light, never toggled, button not held. */
  const NewSession := Session(None, MinToggleTime, false)

  /** The entity a session's light holds, if it has a light holding one. */
  function Held(s: Session): Option<EntityId> {
    if s.light.Some? then s.light.value.entity else None
  }

  /** Explicit toggle: an existing light is removed and dropped, otherwise a new one is created. */
  function Toggle(s: Session, w: WorldView, answer: HostAnswer, pawn: Option<Pose>): (r: (Session, WorldView))
    ensures r.0.lastToggle == s.lastToggle && r.0.wasPressed == s.wasPressed
    ensures r.0.light.Some? <==> s.light.None?
    ensures s.light.Some? ==> r.1 == Lights.Remove(s.light.value, w).1
    ensures s.light.None? ==> (r.0.light.value, r.1) == Lights.Create(Lights.Unlit, w, answer, pawn)
    ensures Consistent(w) ==> Consistent(r.1)
  {
    if s.light.Some? then
      var (_, w1) := Lights.Remove(s.light.value, w);
      (s.(light := None), w1)
    else
      var (l1, w1) := Lights.Create(Lights.Unlit, w, answer, pawn);
      (s.(light := Some(l1)), w1)
  }

  /** The cooldown gate: fewer than 250 ms since the last successful toggle. */
  predicate CoolingDown(s: Session, now: Millis) {
    now - s.lastToggle < ToggleCooldownMs
  }

  /** HandleFlashlightToggle: one tick of the held-button path. */
  function ButtonStep(s: Session, w: WorldView, buttons: Mask, mask: Mask, now: Millis,
                      answer: HostAnswer, pawn: Option<Pose>): (r: (Session, WorldView))
    ensures !HasFlag(buttons, mask) ==> r == (s.(wasPressed := false), w)
    ensures HasFlag(buttons, mask) && (s.wasPressed || CoolingDown(s, now)) ==> r == (s, w)
    ensures HasFlag(buttons, mask) && !s.wasPressed && !CoolingDown(s, now) ==>
              && r.0.light == Toggle(s, w, answer, pawn).0.light
              && r.1 == Toggle(s, w, answer, pawn).1
              && r.0.lastToggle == now && r.0.wasPressed
  {
    if !HasFlag(buttons, mask) then (s.(wasPressed := false), w)
    else if s.wasPressed || CoolingDown(s, now) then (s, w)
    else
      var (s1, w1) := Toggle(s, w, answer, pawn);
      (s1.(lastToggle := now, wasPressed := true), w1)
  }

  /** Whether a step turned the light on or off. */
  predicate Flipped(before: Session, after: Session) {
    before.light.Some? != after.light.Some?
  }

  /** A released button clears the edge flag and changes nothing else. */
  lemma ReleaseResetsEdge(s: Session, w: WorldView, buttons: Mask, mask: Mask, now: Millis,
                          answer: HostAnswer, pawn: Option<Pose>)
    requires !HasFlag(buttons, mask)
    ensures var (s1, w1) := ButtonStep(s, w, buttons, mask, now, answer, pawn);
            !s1.wasPressed && s1.light == s.light && s1.lastToggle == s.lastToggle && w1 == w
  {
  }

  /** A press inside the cooldown is ignored and leaves the edge flag clear. */
  lemma CooldownBlocksPress(s: Session, w: WorldView, buttons: Mask, mask: Mask, now: Millis,
                            answer: HostAnswer, pawn: Option<Pose>)
    requires HasFlag(buttons, mask) && !s.wasPressed && CoolingDown(s, now)
    ensures var (s1, w1) := ButtonStep(s, w, buttons, mask, now, answer, pawn);
            s1 == s && !s1.wasPressed && w1 == w
  {
  }

  /** A fresh edge outside the cooldown toggles, stamps the time and latches the edge flag. */
  lemma EdgeOutsideCooldownToggles(s: Session, w: WorldView, buttons: Mask, mask: Mask, now: Millis,
                                   answer: HostAnswer, pawn: Option<Pose>)
    requires HasFlag(buttons, mask) && !s.wasPressed && !CoolingDown(s, now)
    ensures var (s1, w1) := ButtonStep(s, w, buttons, mask, now, answer, pawn);
            Flipped(s, s1) && s1.lastToggle == now && s1.wasPressed
  {
  }

  /** A new session's first press passes the cooldown (any time at least 250 ms after MinValue). */
  lemma FirstPressToggles(w: WorldView, buttons: Mask, mask: Mask, now: Millis,
                          answer: HostAnswer, pawn: Option<Pose>)
    requires HasFlag(buttons, mask) && now >= ToggleCooldownMs
    ensures var (s1, w1) := ButtonStep(NewSession, w, buttons, mask, now, answer, pawn);
            s1.light.Some? && s1.wasPressed && s1.lastToggle == now
  {
  }

  /** The command path flips the light and leaves both button fields alone. */
  lemma CommandIgnoresCooldown(s: Session, w: WorldView, answer: HostAnswer, pawn: Option<Pose>)
    ensures var (s1, w1) := Toggle(s, w, answer, pawn);
            Flipped(s, s1) && s1.lastToggle == s.lastToggle && s1.wasPressed == s.wasPressed
  {
  }

  /**
   * Two commands in a row starting from "off" restore the session and the set
   * of live entities, whatever the host answered.
   */
  lemma CommandTwiceFromOff(s: Session, w: WorldView, answer: HostAnswer, answer2: HostAnswer, pawn: Option<Pose>)
    requires s.light.None? && Consistent(w)
    ensures var (s1, w1) := Toggle(s, w, answer, pawn);
            var (s2, w2) := Toggle(s1, w1, answer2, pawn);
            s2 == s && w2.live == w.live
  {
    var (s1, w1) := Toggle(s, w, answer, pawn);
    Lights.CreateOutcome(w, answer, pawn);
    assert s1.light.value.entity.Some? ==> s1.light.value.entity.value == w.next;
  }

  /**
   * A refused creation still leaves a light in the session (with no entity),
   * so the next toggle only clears it and creates nothing.
   */
  lemma RefusedCreateNeedsTwoToggles(s: Session, w: WorldView, answer2: HostAnswer, pawn: Option<Pose>)
    requires s.light.None?
    ensures var (s1, w1) := Toggle(s, w, Refuse, pawn);
            var (s2, w2) := Toggle(s1, w1, answer2, pawn);
            s1.light == Some(Lights.Unlit) && w1 == w && s2.light.None? && w2 == w
  {
  }

  /**
   * A continuous hold: the same buttons on every tick, one tick per entry of
   * `times`, with the host's answer to any creation that tick asks for.
   */
  function Hold(s: Session, w: WorldView, buttons: Mask, mask: Mask, times: seq<Millis>,
                answers: seq<HostAnswer>, pawn: Option<Pose>): (Session, WorldView)
    requires |answers| == |times|
    decreases |times|
  {
    if times == [] then (s, w)
    else
      var (s1, w1) := ButtonStep(s, w, buttons, mask, times[0], answers[0], pawn);
      Hold(s1, w1, buttons, mask, times[1..], answers[1..], pawn)
  }

  /** How many ticks of a hold turned the light on or off. */
  function HoldToggles(s: Session, w: WorldView, buttons: Mask, mask: Mask, times: seq<Millis>,
                       answers: seq<HostAnswer>, pawn: Option<Pose>): nat
    requires |answers| == |times|
    decreases |times|
  {
    if times == [] then 0
    else
      var (s1, w1) := ButtonStep(s, w, buttons, mask, times[0], answers[0], pawn);
      (if Flipped(s, s1) then 1 else 0) + HoldToggles(s1, w1, buttons, mask, times[1..], answers[1..], pawn)
  }

  /** Once the edge flag is latched, holding on changes nothing at all. */
  lemma {:induction false} LatchedHoldIsInert(s: Session, w: WorldView, buttons: Mask, mask: Mask,
                                              times: seq<Millis>, answers: seq<HostAnswer>, pawn: Option<Pose>)
    requires |answers| == |times| && HasFlag(buttons, mask) && s.wasPressed
    ensures Hold(s, w, buttons, mask, times, answers, pawn) == (s, w)
    ensures HoldToggles(s, w, buttons, mask, times, answers, pawn) == 0
    decreases |times|
  {
    if times != [] {
      LatchedHoldIsInert(s, w, buttons, mask, times[1..], answers[1..], pawn);
    }
  }

  /**
   * Starting from a clear edge flag, a continuous hold toggles exactly once if
   * some tick of it falls outside the cooldown, and never otherwise.
   */
  lemma {:induction false} HoldTogglesOnce(s: Session, w: WorldView, buttons: Mask, mask: Mask,
                                           times: seq<Millis>, answers: seq<HostAnswer>, pawn: Option<Pose>)
    requires |answers| == |times| && HasFlag(buttons, mask) && !s.wasPressed
    ensures HoldToggles(s, w, buttons, mask, times, answers, pawn)
            == if exists i :: 0 <= i < |times| && !CoolingDown(s, times[i]) then 1 else 0
    decreases |times|
  {
    if times != [] {
      var (s1, w1) := ButtonStep(s, w, buttons, mask, times[0], answers[0], pawn);
      if CoolingDown(s, times[0]) {
        HoldTogglesOnce(s, w, buttons, mask, times[1..], answers[1..], pawn);
        if exists i :: 0 <= i < |times| && !CoolingDown(s, times[i]) {
          var i :| 0 <= i < |times| && !CoolingDown(s, times[i]);
          assert !CoolingDown(s, times[1..][i - 1]);
        }
        if exists i :: 0 <= i < |times[1..]| && !CoolingDown(s, times[1..][i]) {
          var i :| 0 <= i < |times[1..]| && !CoolingDown(s, times[1..][i]);
          assert !CoolingDown(s, times[i + 1]);
        }
      } else {
        LatchedHoldIsInert(s1, w1, buttons, mask, times[1..], answers[1..], pawn);
        assert !CoolingDown(s, times[0]);
      }
    }
  }

  /** Hence a continuous hold never toggles more than once. */
  lemma HoldTogglesAtMostOnce(s: Session, w: WorldView, buttons: Mask, mask: Mask,
                              times: seq<Millis>, answers: seq<HostAnswer>, pawn: Option<Pose>)
    requires |answers| == |times| && HasFlag(buttons, mask)
    ensures HoldToggles(s, w, buttons, mask, times, answers, pawn) <= 1
  {
    if s.wasPressed {
      LatchedHoldIsInert(s, w, buttons, mask, times, answers, pawn);
    } else {
      HoldTogglesOnce(s, w, buttons, mask, times, answers, pawn);
    }
  }
}

=== FILE: wrappers.dfy ===
/** The optional value used wherever the C# code has a nullable reference. */
module Wrappers {
  datatype Option<+T> = None | Some(value: T)
}
